=== FILE: README.md ===
# go-graphql-upload, modelled in Dafny

`go-graphql-upload` is an HTTP middleware for Go GraphQL servers. It follows the GraphQL
multipart request specification. A client uploads files as a `multipart/form-data` POST with
three parts:

- an `operations` field holding the GraphQL request: one object, or an array of objects for a batch;
- a `map` field that binds each file field of the form to one or more dot-separated paths inside `operations`;
- the file parts themselves.

For each declared path the middleware does three things:

1. It walks the path through the operations document to the object that holds its last segment.
2. It copies the file part to the temporary directory. The source names the copy after the client's file name alone. The model gives each copy a name of its own, as recorded under Findings.
3. It writes an `Upload` reference (file name, MIME type, local path) at the path's last segment.

Then it hands the rewritten request to the wrapped handler.

The `Upload` scalar is the type resolvers receive. It decodes that reference and can copy the
stored file elsewhere.

The model is functional. A JSON document is an immutable tree. A path is resolved and written by
total functions that return a `Result`. The file system, the form's file parts and the JSON text
decoder are parameters.

| module | file | what it holds |
|---|---|---|
| `Errors` | errors.dfy | `Option`, `Result`, the parameter errors with their texts, the path errors |
| `JsonTree` | json_tree.dfy | the decoded JSON value, the `GraphQLUpload` reference, and the reference node the middleware stores in a document |
| `Segments` | segments.dfy | splitting a path on `.`; decimal index segments |
| `Scalar` | scalar.dfy | encoding a reference and a document holding references, `ImplementsGraphQLType`, `UnmarshalGraphQL`, `CreateReadStream`, the `WriteFile` copy loop, reading a stored file back |
| `Paths` | paths.dfy | path resolution (`findField`) and writing at a path's end; the source's `findField` as written |
| `Materializer` | materializer.dfy | `addFileToOperations`: copying a part, naming the copy, the temporary directory after the copies, and binding the reference |
| `Transform` | transform.dfy | `singleTransformation` and `multipleTransformation` |
| `Handler` | handler.dfy | which requests are rewritten, decoding `operations` and `map`, the response |

## Model

| member | source | states |
|---|---|---|
| Errors.Text | middleware.go:33-37 | each parameter error has a non-empty response text |
| Errors.TextsDistinct | middleware.go:33-37 | two parameter errors have the same text exactly when they are the same error; every text except the missing-map one is the source's |
| Errors.TextAsWritten | middleware.go:33-37 | as declared, every error except the missing-map one has the same text as in the corrected table |
| Errors.MissingTextsCollideAsWritten | middleware.go:34-35 | as declared, the missing-map text equals the missing-operations text |
| Segments.Split | middleware.go:102 | splitting a path yields at least one segment, and no segment contains a dot |
| Segments.JoinSplit | middleware.go:102 | joining the segments with dots gives back the path, so splitting loses nothing |
| Segments.SplitJoin | middleware.go:102 | splitting the dot-join of dot-free segments gives back those segments |
| Segments.ParseIndex | middleware.go:113 | a segment is read as an index exactly when it is a canonical decimal numeral |
| Segments.ParseNumeral | middleware.go:113 | every natural number is read back from its numeral |
| Segments.IndexInjective | middleware.go:113 | two segments that denote the same index are the same segment |
| Segments.AtoiOrZero | middleware.go:113 | the batch index as the source reads it: digits give their value, with a leading `-` negated and a leading `+` ignored; any other text gives 0; a negative result comes only from a `-` |
| Scalar.ImplementsGraphQLType | scalar.go:17 | true exactly for the type name `Upload` |
| Scalar.ToJson | scalar.go:11-15 | a reference is encoded as an object with exactly the keys `filename`, `mimetype` and `filepath` |
| Scalar.Encode | middleware.go:65-72 | encoding a document turns each stored reference node into the reference's object and nothing else into an object; objects keep their keys, arrays their length, and scalars are unchanged |
| Scalar.UnmarshalGraphQL | scalar.go:18-31 | a non-object input is refused with the "no implementation" error, and an object is always accepted; for an object, each string field replaces that field of the reference, and an absent key or a value of another type leaves it as it was |
| Scalar.UnmarshalRoundTrip | scalar.go:11-15 | decoding the encoded reference gives the same reference, whatever the receiver held before |
| Scalar.CreateReadStream | scalar.go:32-41 | opening succeeds exactly when the reference's path exists, and then yields that file's reads |
| Scalar.StopAt | scalar.go:59-70 | the read at which the copy loop stops: every earlier read continues the loop and this one does not |
| Scalar.WriteFile | scalar.go:43-76 | an open failure is returned before the destination is created; the destination is created exactly when the open succeeds and the name can be created; it is closed exactly when it was created; the bytes written are the concatenation of the reads before the loop stops; the result is that read's error, that write's error, the flush error, or success |
| Scalar.SuccessfulCopyWritesAllChunks | scalar.go:57-75 | after a successful copy, the loop stopped at an empty read or at the end of the stream; every chunk written was non-empty and at most 1 MiB; the flush succeeded |
| Scalar.ChunksRoundTrip | scalar.go:57-70 | reading a stored file gives back exactly its bytes, and every read of it returns bytes without a fault, so the copy loop goes on through all of them |
| Scalar.StoredFileCopies | scalar.go:43-76 | copying a stored file when no write and no flush fails reads every chunk, writes exactly the file's bytes and succeeds |
| Paths.Child | middleware.go:123-128 | an object is entered exactly by a key it has; an array exactly by an in-range canonical index; any other node cannot be entered |
| Paths.Locate | middleware.go:121-131 | the container is found exactly when the segments resolve to an object, and it is that object; a resolution failure is reported as is |
| Paths.SetAt | middleware.go:152-156 | writing directly into a node succeeds exactly when it is an object, which then gains the key; a successful write keeps the root an object or an array as it was, an array's length, and an object's keys when the write is deeper |
| Paths.SetAtSucceedsIff | middleware.go:121-131 | writing at a path's end succeeds exactly when its container resolves, and otherwise fails with the resolution's error |
| Paths.SetAtWrites | middleware.go:152-156 | after a write, the container is the old container with the key rebound, and the full path resolves to the written value |
| Paths.SetAtFrame | middleware.go:152-156 | a write changes nothing else: every path that neither leads to the container nor passes through the written key resolves as before |
| Paths.SetAtKeepsPrefix | middleware.go:121-131 | a successful write keeps every prefix of the container's path resolvable, and an object along it stays an object |
| Paths.ResolveEncoded | middleware.go:65-72 | a path that resolves in a document resolves in the encoded document, to the encoding of what it resolved to |
| Paths.WritesCommute | middleware.go:100-106 | two successful writes at disjoint paths succeed in either order and give the same document |
| Paths.FindFieldAsWritten | middleware.go:121-131 | the source's walk succeeds exactly when it ends at an object |
| Paths.LocateExtendsFindField | middleware.go:121-131 | wherever the source's walk finds a container, the corrected resolver finds the same one |
| Paths.ArrayPathAsWritten | middleware.go:123-125 | for `{"photos":[{}]}` and the segments `photos`, `0`, the source's walk fails and the corrected resolver finds the object |
| Materializer.Copy | middleware.go:133-156 | a part that cannot be accessed, read or written is reported with its own fault, in that order; otherwise the reference carries the part's file name, its `Content-Type` and the copy's path under the chosen naming, and the stored data are the part's bytes |
| Materializer.MaterializeAsWritten | middleware.go:145-146 | as written, a copy's path is the temporary directory, a slash and the client's file name alone |
| Materializer.Materialize | middleware.go:145-146 | corrected, a copy's path also carries the request's serial number and the part's form field in front of the client's file name |
| Materializer.SameNameSharesPathAsWritten | middleware.go:145-146 | as written, two parts' copies share a path exactly when the clients gave them the same file name |
| Materializer.TaggedPathsDistinct | middleware.go:145-146 | corrected, two copies in one temporary directory share a path only when they come from the same request and the same form field |
| Materializer.TagInjective | middleware.go:145-146 | the prefix put in front of a file name determines the serial number and the field, whatever dashes the field or the name hold |
| Materializer.StoreParts | middleware.go:146-147 | copying parts never removes a stored file and leaves the other file-system parameters as they were |
| Materializer.StoredPartReadsBack | middleware.go:145-155 | with the corrected naming, after all the copies, each copied part's reference opens a file whose reads give exactly that part's bytes |
| Materializer.OverwrittenAsWritten | middleware.go:145-147 | as written, of two parts with the same file name copied in turn, the first one's reference opens the second one's bytes |
| Materializer.SampleOverwriteAsWritten | middleware.go:145-147 | for two fields both uploading `a.png` with different bytes, the first reference reads back the second part's bytes as written and its own bytes when corrected |
| Materializer.AddFileToOperations | middleware.go:132-158 | when materializing fails, the container is returned unchanged; otherwise only the last segment's key is bound, to a reference node holding the part's reference, and every other key keeps its value |
| Materializer.WrittenReferenceDecodes | middleware.go:151-156 | the value written for a part, once the document is encoded, decodes, through the scalar, to the part's name, its MIME type and its temporary path |
| Transform.FieldUnits | middleware.go:101 | one unit per declared path of a field, in list order |
| Transform.Units | middleware.go:100-101 | every unit comes from a visited declared field and one of its paths; every declared path of a visited field is a unit (`Handler.Handle` requires `order` to visit every key of the decoded map exactly once, so every declared path is a unit) |
| Transform.UnitsInOrder | middleware.go:100-101 | the keys visited first contribute their pairs first, and one key contributes its paths in list order |
| Transform.ApplyPath | middleware.go:102-104 | one path fails exactly when its container does not resolve; a part that cannot be materialized leaves the document unchanged; otherwise the reference is written at the container's last-segment key and the full path resolves to it |
| Transform.SingleTransformation | middleware.go:99-108 | when the first unit's container does not resolve, the rewrite stops with that error; a successful rewrite keeps the document an object or an array as it was |
| Transform.DisjointUnitsSucceed | middleware.go:99-108 | a rewrite over pairwise disjoint paths whose containers all resolve in the document succeeds |
| Transform.WriteKeepsDisjointContainers | middleware.go:99-108 | a step at one path leaves the container of any disjoint path resolvable |
| Transform.PathThroughReferenceStops | middleware.go:127-131 | once a reference is stored at a path, a later path that continues through it fails because its container is not an object |
| Transform.NothingMaterializedLeavesDocument | middleware.go:99-108 | when no declared part can be materialized, a successful rewrite leaves the document unchanged |
| Transform.ApplyPathAgreesWithSource | middleware.go:103-104 | where the source finds a container, the corrected step leaves in it exactly what the source's `addFileToOperations` returns |
| Transform.TransformationFrame | middleware.go:99-108 | a path disjoint from every declared path resolves after the rewrite as before |
| Transform.DeclaredPathsHoldReferences | middleware.go:99-108 | after a successful single-mode rewrite over pairwise disjoint paths, every declared path whose part could be materialized holds that part's reference |
| Transform.DeclaredPathHoldsReference | middleware.go:99-108 | after a successful rewrite over disjoint paths, a given declared path whose part could be materialized holds that part's reference |
| Transform.UnitsCommute | middleware.go:100-106 | two steps at disjoint paths that each apply to a document give the same document in either order |
| Transform.TransformationAppend | middleware.go:99-108 | rewriting with a sequence of steps is rewriting with its first part, then with the rest |
| Transform.SwapDisjointUnits | middleware.go:100-101 | when two adjacent steps have disjoint paths and both apply, swapping them, as another map iteration order would, does not change the result |
| Transform.ApplyBatchUnit | middleware.go:112-116 | the first segment must be an in-range index, or the matching error is returned; with an in-range index the step succeeds exactly when the rest of the path applies to the selected operation; on success only that operation changes, and it becomes that operation rewritten at the rest of the path |
| Transform.MultipleTransformation | middleware.go:109-120 | no paths leave the batch as it is; a first path that does not apply stops the rewrite with its error; a successful rewrite keeps the batch's length, and an operation that no path selects is unchanged |
| Transform.BatchUnitIsArrayStep | middleware.go:112-116 | a batch step succeeds exactly when the same path applies to the batch as an array, and then gives that array |
| Transform.BatchIsSingleOverArray | middleware.go:109-120 | a batch rewrite succeeds exactly when rewriting the batch as one array document does, and gives the same array |
| Transform.DisjointBatchUnitsSucceed | middleware.go:109-120 | a batch rewrite over pairwise disjoint paths whose containers all resolve in the batch succeeds |
| Transform.ApplyBatchUnitAsWritten | middleware.go:112-116 | as written, the index read with its error ignored must be in range or the step stops; on success the batch keeps its length, the source's walk over the whole prefix (index included) found an object, that operation is replaced by an object and every other operation is unchanged |
| Transform.SampleFailsAsWritten | middleware.go:113-115 | as written, the path `0.variables.file` looks the key `0` up inside the operation and fails |
| Transform.SampleWritesCorrected | middleware.go:113-116 | corrected, the same path selects operation 0 and writes the reference at `variables.file` |
| Transform.BatchIndexAsKeyAsWritten | middleware.go:113-116 | for a one-operation batch, the source's step fails where the corrected one writes the reference |
| Handler.TrimLeftRemovesSpace | middleware.go:47 | trimming on the left keeps a suffix, removes white space only, and leaves no white space at the start |
| Handler.TrimRightRemovesSpace | middleware.go:47 | trimming on the right keeps a prefix, removes white space only, and leaves no white space at the end |
| Handler.LowerMapsLetters | middleware.go:47 | ASCII upper-case letters are lowered and every other character is kept |
| Handler.BeforeSemicolonIsLongestPrefix | middleware.go:47 | the result is the longest prefix without `;`, and when it is shorter than the value the next character is `;` |
| Handler.BeforeSemicolonSkipsParameters | middleware.go:47 | the parameters after the first `;` never reach the media type |
| Handler.TrimSpaceKeepsInner | middleware.go:47 | trimming both ends never lengthens a value, adds no `;`, and leaves no white space at either end |
| Handler.TrimLeftSkipsSpace | middleware.go:47 | trimming on the left removes exactly a white-space prefix in front of a value that starts otherwise |
| Handler.TrimRightSkipsSpace | middleware.go:47 | trimming on the right removes exactly a white-space suffix behind a value that ends otherwise |
| Handler.BeforeSemicolonStops | middleware.go:47 | the part before the parameters is exactly the text before the first `;` |
| Handler.MediaType | middleware.go:47 | the media type is never longer than the header value, holds no `;`, and neither starts nor ends with white space |
| Handler.MediaTypeOfPadded | middleware.go:47 | a header value made of white space, a type, white space and optional parameters has the lower-cased type as its media type |
| Handler.IsMultipartPost | middleware.go:44-48 | a request is handled exactly when it is a POST whose media type is `multipart/form-data`, so its `Content-Type` is at least that long |
| Handler.MultipartWithParametersIsRewritten | middleware.go:44-48 | a POST whose `Content-Type` is `multipart/form-data` in any letter case, with white space around it and with or without parameters, is handled |
| Handler.DecodeOperations | middleware.go:60-85 | single mode exactly when the text denotes an object, and the document is that object; batch mode exactly when it denotes an array of objects |
| Handler.DecodeOperationsAsWritten | middleware.go:40-60 | as written, the decoded document keeps every key an earlier request left in the package-level map |
| Handler.ScratchLeaksAsWritten | middleware.go:40-60 | for the text `{}`, the as-written document still carries an earlier request's `variables`, while a fresh decode is empty |
| Handler.DecodeEntry | middleware.go:62 | an entry decodes as a nil list exactly when it is `null`, and as a list exactly when it is an array of strings and nulls, with one path per element: the string, or the empty path for `null`; nothing else decodes |
| Handler.DecodeMap | middleware.go:62 | the map decodes as a nil map exactly when its text is `null`, and as entries exactly when it is an object whose every value decodes as an entry, with the same keys and each entry that value decoded |
| Handler.DecodeMapAsWritten | middleware.go:62 | as written, the decoded map also keeps every entry an earlier request left in the package-level map; it decodes, and is nil, exactly when the fresh decode does |
| Handler.MapScratchLeaksAsWritten | middleware.go:62 | for the text `{}`, the as-written map still declares an earlier request's `variables.file` for field `0`, while a fresh decode declares nothing |
| Handler.FieldMapRoundTrip | middleware.go:62-70 | the map echoed in the rewritten body decodes back to the map it came from, nil map and nil entries included |
| Handler.NullPathEchoedEmpty | middleware.go:62-70 | a `null` path element is read as the empty path and echoed as `""`, while a `null` entry is echoed as `null` |
| Handler.RewrittenBody | middleware.go:64-71 | the rewritten body has exactly the keys `operationName`, `variables`, `query`, `operations` and `map`; `operationName` is the form's value, and for an object document `variables` and `query` are the echoed document's own |
| Handler.EchoedMapDecodes | middleware.go:62-70 | the `map` echoed in the rewritten body decodes back to the map it was built from |
| Handler.Dispatch | middleware.go:60-90 | the request is refused exactly in single mode with an undecodable map, with the invalid-map error; in single mode with a decoded map, a failing rewrite stops the request with its error and a successful one hands on the body built from the operation name, the rewritten document and the map; in batch mode with a decoded map, a failing rewrite stops the request and a successful one does not replace the body; a batch with an undecodable map and an undecodable `operations` do not replace the body either; a rewritten body comes only from single mode with a decoded map |
| Handler.Handle | middleware.go:42-96 | a request that is not a multipart POST passes through untouched; every refusal has status 400; an absent `operations` and an absent `map` are refused with their own errors; with both present the request is dispatched on their texts, so an undecodable single-mode map is refused and a single-mode rewrite hands on the rebuilt body |
| Handler.HandleAsWritten | middleware.go:44-59 | with the absence checks as the source writes them, a request that is not a multipart POST passes through, and the only refusal is the invalid-map one |
| Handler.MissingOperationsAsWritten | middleware.go:51-55 | as written, a multipart POST without `operations` is handed on with its body not replaced; corrected, it is refused as a missing operations parameter |
| Handler.MissingMapAsWritten | middleware.go:50-79 | as written, a single-mode request without `map` is refused as an invalid map; corrected, as a missing map |
| Handler.RewrittenBodyOfHandle | middleware.go:64-76 | a rewritten body is the body built from the single-mode rewrite of the decoded document |
| Handler.RewrittenBodyHoldsReferences | middleware.go:64-71 | in the rewritten body, `variables` and `query` are the rewritten document's, and every declared disjoint path whose part could be materialized holds that part's reference |

## Left out

- HTTP plumbing is not modelled: `ParseMultipartForm` and its 64 MiB memory limit, `http.Error`, replacing the request body, and the response `Content-Type` header. A request is reduced to its method, its `Content-Type` value, its text fields and its file parts. The outcome is `Forward(body)`, `Reject(status, text)` or `Abort`.
- JSON text is not modelled. The decoder is an abstract parameter `parse` from text to the decoded value. The rewritten body is given as its encoded JSON tree, not as text.
- Several details of Go's JSON decoding are left out:
  - the case-insensitive match of object keys against struct tags in `UnmarshalGraphQL`;
  - `null` as the whole `operations` text;
  - a `null` element inside a batch.
  A number is an `int`.
- Handler.MediaType: the media-type parser's error cases are left out. Go's parser answers the empty media type for a header with a duplicate parameter, while the model keeps the value before the first `;`. Lower-casing covers ASCII letters only, not Unicode lower-casing.
- Handler.LowerMapsLetters: Go's `strings.ToLower` also lowers non-ASCII letters. For example it maps `İ` (U+0130) to `i`, so Go reads `multİpart/form-data` as `multipart/form-data` and the model does not.
- Handler.MediaTypeOfPadded: holds for the model's media type only. Go's parser gives the empty media type when the parameters repeat a name, as in `multipart/form-data; boundary=a; boundary=b`.
- Handler.MultipartWithParametersIsRewritten: does not exclude duplicate parameters. For `multipart/form-data; boundary=a; boundary=b`, Go's media type is empty and the request passes through untouched.
- Segments.AtoiOrZero: `strconv.Atoi` clamps an out-of-range numeral to the largest or smallest 64-bit integer, and the model keeps the unbounded value. Either way the batch index is out of range.
- File-system effects are parameters:
  - which file parts exist and what reading them yields;
  - `os.TempDir()`;
  - which temporary paths cannot be written;
  - what successive reads of an opened file return;
  - which destinations cannot be created;
  - which writes fail;
  - whether the flush fails.
- Materializer.Materialize: the request's serial number is a parameter. The model shows that distinct serials or distinct fields give distinct paths, not how a server keeps serials unique.
- A stored file reads back in full 1 MiB buffers followed by end of file. Shorter reads, which the operating system may return, are not covered by `Scalar.StoredFileCopies`. The file mode `0666` is left out.
- Scalar.WriteFile: a failing close panics in the source; the model records only that the close ran on every exit.
- The middleware writes a `*GraphQLUpload` pointer into the document. The model writes a `Ref` node holding the reference: it is neither an object nor an array, so a later path cannot walk into it, and it becomes the reference's JSON object only when the body is encoded. Pointer identity is not modelled.
- The two files spell the reference's fields differently (`Filename`/`Filepath` in middleware.go, `FileName`/`FilePath` in scalar.go). The model uses the scalar's fields and JSON tags throughout.
- Go's map iteration order is not fixed. It is the explicit parameter `order`, and `Transform.SwapDisjointUnits` and `Paths.WritesCommute` state when it does not matter.
- The source sometimes panics: a path that does not resolve, a container that is not an object (a stored reference included), or a batch index out of range. The model turns each of these into the explicit error value `Abort(PathError)`.
- Transform.ApplyBatchUnit: the corrected batch step also stops in two cases where the source does not panic. The source reads a first segment that is not a numeral as index 0, so `variables.file` writes into operation 0, while the model stops with `InvalidPathSegment`. A one-segment path such as `0` writes the key `0` into operation 0 in the source, while the model stops with `UnresolvedPath`.
- The model follows what middleware.go does:
  - Batch mode rewrites the batch and then discards it, so the request body is not replaced. `ParseMultipartForm` (middleware.go:49) has already read it, so the wrapped handler finds it drained.
  - A batch-mode `map` that does not decode leaves the body not replaced, and equally drained.
  - An `operations` value that is neither an object nor an array of objects leaves the body not replaced, and equally drained. The source declares no error for it.
  - A file part that cannot be accessed, read or written is logged and skipped. The request goes on without that reference.
  - Paths are processed one after another.
- Array indices in paths are canonical decimal numerals. A segment with a leading zero, such as `01`, does not index an array.
- Logging is left out. The dead `addFile` helper (middleware.go:160-197) is left out. The example application under example/ is left out.
- Concurrency is left out. The package-level maps that requests share are modelled only as the leak recorded under Findings.
- Handler.RewrittenBodyHoldsReferences requires every pair of declared paths to be disjoint. Two paths where one is a prefix of the other are not covered.

## Findings

| source | as written | input that shows it | evidently intended | confidence | as-written member | corrected member |
|---|---|---|---|---|---|---|
| middleware.go:121-131 | `findField` enters an array only if it is typed `[]map[string]interface{}`, which decoded JSON never is, and it would index by the loop counter rather than the segment | document `{"photos":[{}]}` with the path `photos.0.file` | parse the segment as an index, bounds-check it and enter the array | high, not executed | Paths.FindFieldAsWritten, Paths.ArrayPathAsWritten | Paths.Locate, Paths.LocateExtendsFindField |
| middleware.go:113-115 | the batch index segment is also passed to `findField`, which looks it up as a key inside the selected operation | batch `[{"variables":{"file":null}}]` with the path `0.variables.file` | consume the index and resolve the rest of the path inside the selected operation | high, not executed | Transform.ApplyBatchUnitAsWritten, Transform.BatchIndexAsKeyAsWritten | Transform.ApplyBatchUnit, Transform.SampleWritesCorrected |
| middleware.go:34-35 | the missing-map error has the missing-operations text | any request refused for a missing map | a text naming the map | high, not executed | Errors.TextAsWritten, Errors.MissingTextsCollideAsWritten | Errors.Text, Errors.TextsDistinct |
| middleware.go:50-59 | `&o == nil` and `&m == nil` test the address of a local variable, so an absent field is never detected and is read as empty text | a multipart POST with no `operations` field | refuse it with status 400 and the missing-parameter error | high, not executed | Handler.HandleAsWritten, Handler.MissingOperationsAsWritten, Handler.MissingMapAsWritten | Handler.Handle |
| middleware.go:40-60 | `operations` is decoded into a package-level map that is never reset, so keys from earlier requests persist | a request with `variables` followed by one whose `operations` is `{}` | decode each request into a fresh map | medium, not executed | Handler.DecodeOperationsAsWritten, Handler.ScratchLeaksAsWritten | Handler.DecodeOperations |
| middleware.go:39-62 | `map` is decoded into the package-level `mapEntries`, which is never reset, so an earlier request's entries are applied again | a request whose `map` is `{"0":["variables.file"]}` followed by one whose `map` is `{}` | decode each request into a fresh map | medium, not executed | Handler.DecodeMapAsWritten, Handler.MapScratchLeaksAsWritten | Handler.DecodeMap |
| middleware.go:145-146 | each part is copied to the temporary directory under the client's file name alone, so two parts with the same name share one path and the later copy replaces the earlier one's bytes | fields `0` and `1` both uploading `a.png`, holding the bytes 1 and 2 | give each part's copy a name no other part shares, such as one carrying the request and the form field | high, not executed | Materializer.MaterializeAsWritten, Materializer.SameNameSharesPathAsWritten, Materializer.OverwrittenAsWritten, Materializer.SampleOverwriteAsWritten | Materializer.Materialize, Materializer.TaggedPathsDistinct, Materializer.StoredPartReadsBack |

=== FILE: errors.dfy ===
/** Failure-carrying datatypes and the error values of the upload middleware. */
module Errors {

  /** The usual Some/None datatype, used where the source reads a possibly absent value. */
  datatype Option<+T> = None | Some(value: T)

  /** A value or an error; usable with `:-`. */
  datatype Result<+T, +E> = Ok(value: T) | Err(error: E) {

    predicate IsFailure() {
      Err?
    }

    function PropagateFailure<U>(): Result<U, E>
      requires Err?
    {
      Err(error)
    }

    function Extract(): T
      requires Ok?
    {
      value
    }
  }

  /** An I/O failure reported by the file system or a stream. */
  datatype IoError = IoError(message: string)

  /** Errors the middleware reports before touching any file: they become an HTTP 400 response. */
  datatype ParamError =
    | MissingOperationsParam
    | MissingMapParam
    | InvalidMapParam

  /** The HTTP status of every parameter error. */
  const BadRequest: int := 400

  /** Errors of resolving a declared path inside the operations document. The source
      panics in these situations; here they are explicit values. */
  datatype PathError =
    | UnresolvedPath      // a key is missing, or a scalar is met before the path ends
    | InvalidPathSegment  // an array is indexed by a segment that is not a decimal numeral
    | IndexOutOfRange     // an array (or the batch) is indexed past its end
    | TargetNotObject     // the container the last segment names a key of is not an object

  /** The response text of each parameter error; the two "missing" errors can be told apart. */
  function Text(e: ParamError): (t: string)
    ensures |t| > 0
  {
    match e
    case MissingOperationsParam => "Missing operations parameter"
    case MissingMapParam => "Missing map parameter"
    case InvalidMapParam => "Invalid map parameter"
  }

  /** The response texts as the source declares them: the map error reuses the operations text. */
  function TextAsWritten(e: ParamError): (t: string)
    ensures e != MissingMapParam ==> t == Text(e)
  {
    if e == MissingMapParam then Text(MissingOperationsParam) else Text(e)
  }

  /** As written, a client cannot tell a missing `map` from a missing `operations`. */
  lemma MissingTextsCollideAsWritten()
    ensures TextAsWritten(MissingMapParam) == TextAsWritten(MissingOperationsParam)
  {
  }

  /** Each parameter error has its own text, and every text but the "missing" pair is unchanged. */
  lemma TextsDistinct(a: ParamError, b: ParamError)
    ensures Text(a) == Text(b) <==> a == b
    ensures a != MissingMapParam ==> Text(a) == TextAsWritten(a)
  {
    assert Text(MissingMapParam)[8] == 'm';
    assert Text(MissingOperationsParam)[8] == 'o';
  }
}

=== FILE: handler.dfy ===
/** The HTTP middleware (`Handler`): which requests are rewritten, how the `operations` and
    `map` fields are decoded, and what reaches the wrapped handler. */
module Handler {
  import opened Errors
  import opened JsonTree
  import opened Segments
  import opened Paths
  import opened Scalar
  import opened Materializer
  import opened Transform

  const MethodPost: string := "POST"
  const MultipartFormData: string := "multipart/form-data"
  const OperationsField: string := "operations"
  const MapField: string := "map"
  const OperationNameField: string := "operationName"

  /** What the middleware reads from a request: its method (`verb`), its `Content-Type` header (empty
      when absent), the text fields of its multipart form, and its file parts. */
  datatype Request = Request(verb: string, contentType: string, form: map<string, string>, uploads: Uploads)

  /** The body the wrapped handler reads. `Original`: the request's body is not replaced; for a
      multipart POST the form parser has already read it. `Rewritten`: the encoded JSON document. */
  datatype Body = Original | Rewritten(json: Json)

  /** What the middleware does with a request: hand it on, answer it with an error, or stop
      on a path that does not resolve (where the source panics). */
  datatype Response =
    | Forward(body: Body)
    | Reject(status: int, message: string)
    | Abort(error: PathError)

  /** Unicode white space as Go's `unicode.IsSpace` defines it. */
  predicate IsSpace(c: char) {
    var n := c as int;
    n == 0x20 || (0x09 <= n <= 0x0D) || n == 0x85 || n == 0xA0 || n == 0x1680
    || (0x2000 <= n <= 0x200A) || n == 0x2028 || n == 0x2029 || n == 0x202F
    || n == 0x205F || n == 0x3000
  }

  /** The string without its leading white space. */
  function TrimLeft(s: string): (t: string)
    ensures |t| <= |s|
    decreases |s|
  {
    if |s| > 0 && IsSpace(s[0]) then TrimLeft(s[1..]) else s
  }

  /** `TrimLeft` keeps a suffix, removes white space only, and stops at the first other
      character. */
  lemma {:induction false} TrimLeftRemovesSpace(s: string)
    ensures TrimLeft(s) == s[|s| - |TrimLeft(s)|..]
    ensures forall i :: 0 <= i < |s| - |TrimLeft(s)| ==> IsSpace(s[i])
    ensures |TrimLeft(s)| > 0 ==> !IsSpace(TrimLeft(s)[0])
    decreases |s|
  {
    if |s| > 0 && IsSpace(s[0]) {
      TrimLeftRemovesSpace(s[1..]);
      assert forall i :: 1 <= i < |s| ==> s[i] == s[1..][i - 1];
      assert s[1..][|s| - 1 - |TrimLeft(s)|..] == s[|s| - |TrimLeft(s)|..];
    }
  }

  /** The string without its trailing white space. */
  function TrimRight(s: string): (t: string)
    ensures |t| <= |s|
    decreases |s|
  {
    if |s| > 0 && IsSpace(s[|s| - 1]) then TrimRight(s[..|s| - 1]) else s
  }

  /** `TrimRight` keeps a prefix, removes white space only, and stops at the last other
      character. */
  lemma {:induction false} TrimRightRemovesSpace(s: string)
    ensures TrimRight(s) == s[..|TrimRight(s)|]
    ensures forall i :: |TrimRight(s)| <= i < |s| ==> IsSpace(s[i])
    ensures |TrimRight(s)| > 0 ==> !IsSpace(TrimRight(s)[|TrimRight(s)| - 1])
    decreases |s|
  {
    if |s| > 0 && IsSpace(s[|s| - 1]) {
      TrimRightRemovesSpace(s[..|s| - 1]);
      assert s[..|s| - 1][..|TrimRight(s)|] == s[..|TrimRight(s)|];
    }
  }

  /** `strings.TrimSpace`: the string without leading and trailing white space. */
  function TrimSpace(s: string): string
  {
    TrimRight(TrimLeft(s))
  }

  /** `TrimSpace` keeps a stretch of the string that neither starts nor ends with white space,
      so a character the string lacks is not in the result. */
  lemma TrimSpaceKeepsInner(s: string)
    ensures |TrimSpace(s)| <= |s|
    ensures ';' !in s ==> ';' !in TrimSpace(s)
    ensures |TrimSpace(s)| > 0 ==> !IsSpace(TrimSpace(s)[0]) && !IsSpace(TrimSpace(s)[|TrimSpace(s)| - 1])
  {
    var left := TrimLeft(s);
    TrimLeftRemovesSpace(s);
    var m := TrimRight(left);
    TrimRightRemovesSpace(left);
    if ';' !in s {
      assert ';' !in left by {
        forall i | 0 <= i < |left| ensures left[i] != ';' {
          assert left[i] == s[|s| - |left| + i];
        }
      }
      assert ';' !in m by {
        forall i | 0 <= i < |m| ensures m[i] != ';' {
          assert m[i] == left[i];
        }
      }
    }
    assert |m| > 0 ==> m[0] == left[0];
  }

  /** ASCII letters lowered; every other character is kept. */
  function Lower(s: string): (t: string)
    ensures |t| == |s|
  {
    seq(|s|, i requires 0 <= i < |s| => if 'A' <= s[i] <= 'Z' then (s[i] as int + 32) as char else s[i])
  }

  /** `Lower` maps each upper-case ASCII letter to its lower-case letter and keeps every other
      character. */
  lemma LowerMapsLetters(s: string)
    ensures forall i :: 0 <= i < |s| ==> ('A' <= s[i] <= 'Z' ==> Lower(s)[i] as int == s[i] as int + 32)
    ensures forall i :: 0 <= i < |s| ==> (!('A' <= s[i] <= 'Z') ==> Lower(s)[i] == s[i])
  {
  }

  /** The part of a header value before its first `;`. */
  function BeforeSemicolon(s: string): (t: string)
    ensures |t| <= |s|
    decreases |s|
  {
    if |s| == 0 || s[0] == ';' then "" else [s[0]] + BeforeSemicolon(s[1..])
  }

  /** `BeforeSemicolon` keeps the longest prefix without `;`. */
  lemma {:induction false} BeforeSemicolonIsLongestPrefix(s: string)
    ensures BeforeSemicolon(s) <= s && ';' !in BeforeSemicolon(s)
    ensures |BeforeSemicolon(s)| < |s| ==> s[|BeforeSemicolon(s)|] == ';'
    decreases |s|
  {
    if |s| > 0 && s[0] != ';' {
      BeforeSemicolonIsLongestPrefix(s[1..]);
      assert s == [s[0]] + s[1..];
    }
  }

  /** `mime.ParseMediaType`'s media type: the value before any parameters, lowered and trimmed.
      It is never longer than the header value, holds no `;`, and neither starts nor ends with
      white space. */
  function MediaType(v: string): (m: string)
    ensures |m| <= |v|
    ensures ';' !in m
    ensures |m| > 0 ==> !IsSpace(m[0]) && !IsSpace(m[|m| - 1])
  {
    var p := BeforeSemicolon(v);
    BeforeSemicolonIsLongestPrefix(v);
    var l := Lower(p);
    LowerMapsLetters(p);
    assert ';' !in l by {
      forall i | 0 <= i < |l| ensures l[i] != ';' {
        assert p[i] != ';';
      }
    }
    TrimSpaceKeepsInner(l);
    TrimSpace(l)
  }

  /** The requests the middleware rewrites: a POST whose media type is `multipart/form-data`.
      The source's test for a non-empty header adds nothing, since the empty value's media
      type is empty. */
  function IsMultipartPost(req: Request): (b: bool)
    ensures b <==> req.verb == MethodPost && MediaType(req.contentType) == MultipartFormData
    ensures b ==> |req.contentType| >= |MultipartFormData|
  {
    req.verb == MethodPost && req.contentType != "" && MediaType(req.contentType) == MultipartFormData
  }

  /** A header value's parameters never reach the media type. */
  lemma {:induction false} BeforeSemicolonSkipsParameters(t: string, parameters: string)
    requires ';' !in t
    ensures BeforeSemicolon(t + ";" + parameters) == t
    decreases |t|
  {
    if |t| > 0 {
      assert (t + ";" + parameters)[1..] == t[1..] + ";" + parameters;
      BeforeSemicolonSkipsParameters(t[1..], parameters);
      assert [t[0]] + t[1..] == t;
    } else {
      assert (t + ";" + parameters)[0] == ';';
    }
  }

  /** Leading white space before a character that is not white space is all `TrimLeft` removes. */
  lemma {:induction false} TrimLeftSkipsSpace(w: string, t: string)
    requires forall i :: 0 <= i < |w| ==> IsSpace(w[i])
    requires |t| > 0 && !IsSpace(t[0])
    ensures TrimLeft(w + t) == t
    decreases |w|
  {
    if |w| > 0 {
      assert (w + t)[1..] == w[1..] + t;
      TrimLeftSkipsSpace(w[1..], t);
    } else {
      assert w + t == t;
    }
  }

  /** Trailing white space after a character that is not white space is all `TrimRight` removes. */
  lemma {:induction false} TrimRightSkipsSpace(t: string, w: string)
    requires forall i :: 0 <= i < |w| ==> IsSpace(w[i])
    requires |t| > 0 && !IsSpace(t[|t| - 1])
    ensures TrimRight(t + w) == t
    decreases |w|
  {
    if |w| > 0 {
      assert (t + w)[..|t + w| - 1] == t + w[..|w| - 1];
      TrimRightSkipsSpace(t, w[..|w| - 1]);
    } else {
      assert t + w == t;
    }
  }

  /** The text before a `;` that ends it, or the whole text, is what `BeforeSemicolon` keeps. */
  lemma BeforeSemicolonStops(x: string, tail: string)
    requires ';' !in x
    requires tail == "" || tail[0] == ';'
    ensures BeforeSemicolon(x + tail) == x
  {
    if tail == "" {
      assert x + tail == x;
      BeforeSemicolonIsLongestPrefix(x);
    } else {
      assert tail == ";" + tail[1..];
      assert x + tail == x + ";" + tail[1..];
      BeforeSemicolonSkipsParameters(x, tail[1..]);
    }
  }

  /** The media type of a header value is its type lowered, whatever white space surrounds the
      type and whatever parameters follow it. */
  lemma MediaTypeOfPadded(w1: string, t: string, w2: string, tail: string)
    requires forall i :: 0 <= i < |w1| ==> IsSpace(w1[i])
    requires forall i :: 0 <= i < |w2| ==> IsSpace(w2[i])
    requires |t| > 0 && ';' !in t && !IsSpace(t[0]) && !IsSpace(t[|t| - 1])
    requires tail == "" || tail[0] == ';'
    ensures MediaType(w1 + t + w2 + tail) == Lower(t)
  {
    var x := w1 + t + w2;
    assert ';' !in x by {
      forall i | 0 <= i < |x| ensures x[i] != ';' {
        if i < |w1| { assert x[i] == w1[i]; }
        else if i < |w1| + |t| { assert x[i] == t[i - |w1|]; }
        else { assert x[i] == w2[i - |w1| - |t|]; }
      }
    }
    BeforeSemicolonStops(x, tail);
    LowerMapsLetters(x);
    LowerMapsLetters(t);
    var l := Lower(t);
    assert Lower(x) == w1 + l + w2 by {
      forall i | 0 <= i < |x| ensures Lower(x)[i] == (w1 + l + w2)[i] {
        if i < |w1| { assert x[i] == w1[i]; }
        else if i < |w1| + |t| { assert x[i] == t[i - |w1|]; }
        else { assert x[i] == w2[i - |w1| - |t|]; }
      }
    }
    assert !IsSpace(l[0]) && !IsSpace(l[|l| - 1]);
    assert w1 + l + w2 == w1 + (l + w2);
    TrimLeftSkipsSpace(w1, l + w2);
    TrimRightSkipsSpace(l, w2);
  }

  /** A POST whose `Content-Type` names `multipart/form-data` in any letter case, with any white
      space around it and any parameters after it (the boundary a client sends), is rewritten. */
  lemma MultipartWithParametersIsRewritten(req: Request, w1: string, t: string, w2: string, tail: string)
    requires forall i :: 0 <= i < |w1| ==> IsSpace(w1[i])
    requires forall i :: 0 <= i < |w2| ==> IsSpace(w2[i])
    requires Lower(t) == MultipartFormData
    requires tail == "" || tail[0] == ';'
    requires req.verb == MethodPost && req.contentType == w1 + t + w2 + tail
    ensures IsMultipartPost(req)
  {
    LowerMapsLetters(t);
    assert ';' !in t by {
      forall i | 0 <= i < |t| ensures t[i] != ';' {
        assert Lower(t)[i] != ';';
      }
    }
    assert Lower(t)[0] == 'm' && Lower(t)[|t| - 1] == 'a';
    MediaTypeOfPadded(w1, t, w2, tail);
  }

  /** The `operations` field decoded: one object (single mode), failing that an array of
      objects (batch mode), failing that neither. */
  datatype Operations = Single(doc: map<string, Json>) | Batch(ops: seq<Json>) | Undecodable

  /** `parse` is the JSON decoder: the value a text denotes, or nothing for malformed text. */
  function DecodeOperations(parse: string -> Option<Json>, text: string): (r: Operations)
    ensures r.Single? <==> parse(text).Some? && parse(text).value.Obj?
    ensures r.Single? ==> parse(text) == Some(Obj(r.doc))
    ensures r.Batch? <==> parse(text).Some? && parse(text).value.Arr?
                          && forall i :: 0 <= i < |parse(text).value.items| ==> parse(text).value.items[i].Obj?
    ensures r.Batch? ==> parse(text) == Some(Arr(r.ops))
  {
    match parse(text)
    case Some(Obj(fields)) => Single(fields)
    case Some(Arr(items)) =>
      if forall i :: 0 <= i < |items| ==> items[i].Obj? then Batch(items) else Undecodable
    case _ => Undecodable
  }

  /** The `operations` field as the source decodes it: into a package-level map that keeps
      what earlier requests left in it, so an object's keys are added over the old ones. */
  function DecodeOperationsAsWritten(scratch: map<string, Json>, parse: string -> Option<Json>, text: string)
    : (r: Operations)
    ensures r.Single? <==> DecodeOperations(parse, text).Single?
    ensures r.Single? ==> r.doc.Keys == scratch.Keys + DecodeOperations(parse, text).doc.Keys
  {
    match DecodeOperations(parse, text)
    case Single(doc) => Single(scratch + doc)
    case other => other
  }

  /** As written, a request whose `operations` is `{}` arrives carrying the `variables` an
      earlier request left behind, file reference included; decoded afresh it is empty. */
  lemma ScratchLeaksAsWritten()
    ensures var parse: string -> Option<Json> := t => Some(Obj(map[]));
            var earlier := map["variables" := Obj(map["file" := Str("/tmp/a.png")])];
            && "variables" in DecodeOperationsAsWritten(earlier, parse, "{}").doc
            && DecodeOperations(parse, "{}") == Single(map[])
  {
  }

  /** One entry of the `map` field as it is decoded into a list of strings: `null` stays a nil
      list, which is echoed as `null`, and a `null` element becomes the empty path. */
  datatype Entry = NullEntry | Listed(paths: seq<string>)

  /** The paths an entry declares; a nil list declares none. */
  function EntryPaths(e: Entry): seq<string>
  {
    if e.Listed? then e.paths else []
  }

  /** A list element decoded into a string: its text, or the empty string for `null`. */
  function PathText(j: Json): string
    requires j.Str? || j.Null?
  {
    if j.Str? then j.s else ""
  }

  /** One entry of the `map` field: `null`, or an array whose elements are strings or `null`. */
  function DecodeEntry(j: Json): (r: Option<Entry>)
    ensures r == Some(NullEntry) <==> j.Null?
    ensures r.Some? && r.value.Listed? <==>
              j.Arr? && forall i :: 0 <= i < |j.items| ==> j.items[i].Str? || j.items[i].Null?
    ensures r.Some? && r.value.Listed? ==>
              && |r.value.paths| == |j.items|
              && (forall i :: 0 <= i < |j.items| && j.items[i].Str? ==> r.value.paths[i] == j.items[i].s)
              && (forall i :: 0 <= i < |j.items| && j.items[i].Null? ==> r.value.paths[i] == "")
  {
    match j
    case Null => Some(NullEntry)
    case Arr(items) =>
      if forall i :: 0 <= i < |items| ==> items[i].Str? || items[i].Null?
      then Some(Listed(seq(|items|, i requires 0 <= i < |items| && (items[i].Str? || items[i].Null?) => PathText(items[i]))))
      else None
    case _ => None
  }

  /** The `map` field decoded: `null` stays a nil map; otherwise an object of entries. */
  datatype FieldMap = NullMap | Fields(entries: map<string, Entry>)

  /** The paths each file field declares; a nil map declares none. */
  function DeclaredPaths(f: FieldMap): map<string, seq<string>>
  {
    match f
    case NullMap => map[]
    case Fields(es) => map k | k in es :: EntryPaths(es[k])
  }

  /** The `map` field decoded: `null`, or an object whose every value decodes as an entry. */
  function DecodeMap(parse: string -> Option<Json>, text: string): (r: Option<FieldMap>)
    ensures r == Some(NullMap) <==> parse(text) == Some(Null)
    ensures r.Some? && r.value.Fields? <==>
              && parse(text).Some? && parse(text).value.Obj?
              && forall k :: k in parse(text).value.fields ==> DecodeEntry(parse(text).value.fields[k]).Some?
    ensures r.Some? && r.value.Fields? ==>
              && r.value.entries.Keys == parse(text).value.fields.Keys
              && forall k :: k in r.value.entries ==> DecodeEntry(parse(text).value.fields[k]) == Some(r.value.entries[k])
  {
    match parse(text)
    case Some(Null) => Some(NullMap)
    case Some(Obj(fields)) =>
      if forall k :: k in fields ==> DecodeEntry(fields[k]).Some?
      then Some(Fields(map k | k in fields :: DecodeEntry(fields[k]).value))
      else None
    case _ => None
  }

  /** The `map` field as the source decodes it: into a package-level map that keeps what
      earlier requests left in it, so an object's entries are added over the old ones. */
  function DecodeMapAsWritten(scratch: FieldMap, parse: string -> Option<Json>, text: string): (r: Option<FieldMap>)
    ensures r.Some? <==> DecodeMap(parse, text).Some?
    ensures r == Some(NullMap) <==> DecodeMap(parse, text) == Some(NullMap)
    ensures r.Some? && r.value.Fields? && scratch.Fields? ==>
              r.value.entries.Keys == scratch.entries.Keys + DecodeMap(parse, text).value.entries.Keys
  {
    match DecodeMap(parse, text)
    case Some(Fields(es)) => Some(Fields((if scratch.Fields? then scratch.entries else map[]) + es))
    case other => other
  }

  /** As written, a request whose `map` is `{}` still declares the path an earlier request
      declared; decoded afresh it declares none. */
  lemma MapScratchLeaksAsWritten()
    ensures var parse: string -> Option<Json> := t => Some(Obj(map[]));
            var earlier := Fields(map["0" := Listed(["variables.file"])]);
            && DecodeMapAsWritten(earlier, parse, "{}") == Some(earlier)
            && DeclaredPaths(DecodeMapAsWritten(earlier, parse, "{}").value) == map["0" := ["variables.file"]]
            && DecodeMap(parse, "{}") == Some(Fields(map[]))
  {
    var parse: string -> Option<Json> := t => Some(Obj(map[]));
    var es := map["0" := Listed(["variables.file"])];
    assert DecodeMap(parse, "{}") == Some(Fields(map[]));
    assert es + map[] == es;
    var d := DeclaredPaths(Fields(es));
    assert d.Keys == {"0"} && d["0"] == ["variables.file"];
  }

  /** A list of path strings as JSON. */
  function StringsJson(paths: seq<string>): Json
  {
    Arr(seq(|paths|, i requires 0 <= i < |paths| => Str(paths[i])))
  }

  /** An entry as JSON: a nil list is `null`. */
  function EntryJson(e: Entry): Json
  {
    match e
    case NullEntry => Null
    case Listed(paths) => StringsJson(paths)
  }

  /** The field map as JSON, as it is echoed in the rewritten body: a nil map is `null`. */
  function FieldMapJson(f: FieldMap): Json
  {
    match f
    case NullMap => Null
    case Fields(es) => Obj(map k | k in es :: EntryJson(es[k]))
  }

  /** The echoed field map decodes back to the field map it came from. */
  lemma FieldMapRoundTrip(f: FieldMap, parse: string -> Option<Json>, text: string)
    requires parse(text) == Some(FieldMapJson(f))
    ensures DecodeMap(parse, text) == Some(f)
  {
    if f.Fields? {
      var es := f.entries;
      forall k | k in es
        ensures DecodeEntry(EntryJson(es[k])) == Some(es[k])
      {
        var r := DecodeEntry(EntryJson(es[k]));
        if es[k].Listed? {
          assert r.Some? && r.value.Listed?;
          assert r.value.paths == es[k].paths;
        }
      }
      var fields := parse(text).value.fields;
      assert forall k :: k in fields ==> DecodeEntry(fields[k]).Some?;
      var m := map k | k in fields :: DecodeEntry(fields[k]).value;
      assert m.Keys == es.Keys;
      assert m == es;
    }
  }

  /** A `null` element of an entry is read as the empty path and echoed as `""`, while a `null`
      entry is echoed as `null`. */
  lemma NullPathEchoedEmpty()
    ensures DecodeEntry(Arr([Null])) == Some(Listed([""]))
    ensures EntryJson(Listed([""])) == Arr([Str("")])
    ensures DecodeEntry(Null) == Some(NullEntry) && EntryJson(NullEntry) == Null
  {
    var r := DecodeEntry(Arr([Null]));
    assert r.Some? && r.value.Listed?;
    assert r.value.paths == [""];
    assert StringsJson([""]).items == [Str("")];
  }

  /** `order` lists every key of `keys` exactly once, as an iteration over a Go map does. */
  ghost predicate Enumerates(order: seq<string>, keys: set<string>) {
    && (forall k :: k in keys <==> k in order)
    && (forall i, j :: 0 <= i < j < |order| ==> order[i] != order[j])
  }

  /** When the `map` field decodes, `order` is an iteration order over its keys. */
  ghost predicate OrdersMap(order: seq<string>, parse: string -> Option<Json>, text: string) {
    DecodeMap(parse, text).Some? ==> Enumerates(order, DeclaredPaths(DecodeMap(parse, text).value).Keys)
  }

  /** The body handed on in single mode, as it is encoded: the operation name from the form,
      `query` and `variables` from the rewritten document, the document itself and the field
      map. */
  function RewrittenBody(operationName: string, doc: Json, f: FieldMap): (b: Json)
    ensures b.Obj? && b.fields.Keys == {OperationNameField, "variables", "query", OperationsField, MapField}
    ensures b.fields[OperationNameField] == Str(operationName)
    ensures doc.Obj? ==> && b.fields["variables"] == Member(b.fields[OperationsField], "variables")
                         && b.fields["query"] == Member(b.fields[OperationsField], "query")
  {
    Obj(map[
      OperationNameField := Str(operationName),
      "variables" := Encode(Member(doc, "variables")),
      "query" := Encode(Member(doc, "query")),
      OperationsField := Encode(doc),
      MapField := FieldMapJson(f)])
  }

  /** The map echoed in a rewritten body decodes back to the map it was built from. */
  lemma EchoedMapDecodes(parse: string -> Option<Json>, text: string, operationName: string, doc: Json, f: FieldMap)
    requires parse(text) == Some(RewrittenBody(operationName, doc, f).fields[MapField])
    ensures DecodeMap(parse, text) == Some(f)
  {
    FieldMapRoundTrip(f, parse, text);
  }

  /** A form field as `PostFormValue` reads it: empty when absent. */
  function FormValue(form: map<string, string>, name: string): string
  {
    if name in form then form[name] else ""
  }

  /** What the middleware does with the text of the `operations` and `map` fields of a
      multipart POST: single mode rewrites the body, or refuses a malformed map; batch mode
      rewrites the batch but does not replace the body; anything else passes on with the body not replaced. A path
      that does not resolve stops the request in either mode. */
  function Dispatch(req: Request, parse: string -> Option<Json>, order: seq<string>,
                    operations: string, fieldMap: string): (r: Response)
    requires OrdersMap(order, parse, fieldMap)
    ensures r.Reject? <==> DecodeOperations(parse, operations).Single? && DecodeMap(parse, fieldMap).None?
    ensures r.Reject? ==> r == Reject(BadRequest, Text(InvalidMapParam))
    ensures DecodeOperations(parse, operations).Single? && DecodeMap(parse, fieldMap).Some? ==>
              var f := DecodeMap(parse, fieldMap).value;
              var run := SingleTransformation(Obj(DecodeOperations(parse, operations).doc),
                                              Units(DeclaredPaths(f), order), req.uploads);
              && (run.Err? ==> r == Abort(run.error))
              && (run.Ok? ==> r == Forward(Rewritten(RewrittenBody(FormValue(req.form, OperationNameField), run.value, f))))
    ensures DecodeOperations(parse, operations).Batch? && DecodeMap(parse, fieldMap).Some? ==>
              var run := MultipleTransformation(DecodeOperations(parse, operations).ops,
                                                Units(DeclaredPaths(DecodeMap(parse, fieldMap).value), order), req.uploads);
              && (run.Err? ==> r == Abort(run.error))
              && (run.Ok? ==> r == Forward(Original))
    ensures DecodeOperations(parse, operations).Batch? && DecodeMap(parse, fieldMap).None? ==> r == Forward(Original)
    ensures r.Forward? && r.body.Rewritten? ==>
              DecodeOperations(parse, operations).Single? && DecodeMap(parse, fieldMap).Some?
    ensures DecodeOperations(parse, operations).Undecodable? ==> r == Forward(Original)
  {
    match DecodeOperations(parse, operations)
    case Single(doc) =>
      (match DecodeMap(parse, fieldMap)
       case None => Reject(BadRequest, Text(InvalidMapParam))
       case Some(f) =>
         match SingleTransformation(Obj(doc), Units(DeclaredPaths(f), order), req.uploads)
         case Err(e) => Abort(e)
         case Ok(doc') => Forward(Rewritten(RewrittenBody(FormValue(req.form, OperationNameField), doc', f))))
    case Batch(ops) =>
      (match DecodeMap(parse, fieldMap)
       case None => Forward(Original)
       case Some(f) =>
         match MultipleTransformation(ops, Units(DeclaredPaths(f), order), req.uploads)
         case Err(e) => Abort(e)
         case Ok(_) => Forward(Original))
    case Undecodable => Forward(Original)
  }

  /** The middleware. `parse` decodes JSON text; `order` is the order in which Go's map
      iteration happens to visit the keys of the decoded `map` field. An absent field is
      refused with its own error; with both fields present the request is dispatched. */
  function Handle(req: Request, parse: string -> Option<Json>, order: seq<string>): (r: Response)
    requires MapField in req.form ==> OrdersMap(order, parse, req.form[MapField])
    ensures !IsMultipartPost(req) ==> r == Forward(Original)
    ensures r.Reject? ==> IsMultipartPost(req) && r.status == BadRequest
    ensures IsMultipartPost(req) && OperationsField !in req.form
            ==> r == Reject(BadRequest, Text(MissingOperationsParam))
    ensures IsMultipartPost(req) && OperationsField in req.form && MapField !in req.form
            ==> r == Reject(BadRequest, Text(MissingMapParam))
    ensures IsMultipartPost(req) && OperationsField in req.form && MapField in req.form
            ==> r == Dispatch(req, parse, order, req.form[OperationsField], req.form[MapField])
    ensures IsMultipartPost(req) && OperationsField in req.form && MapField in req.form
            && DecodeOperations(parse, req.form[OperationsField]).Single?
            && DecodeMap(parse, req.form[MapField]).None?
            ==> r == Reject(BadRequest, Text(InvalidMapParam))
    ensures r.Forward? && r.body.Rewritten? ==>
              && IsMultipartPost(req)
              && OperationsField in req.form && MapField in req.form
              && DecodeOperations(parse, req.form[OperationsField]).Single?
              && DecodeMap(parse, req.form[MapField]).Some?
  {
    if !IsMultipartPost(req) then Forward(Original)
    else if OperationsField !in req.form then Reject(BadRequest, Text(MissingOperationsParam))
    else if MapField !in req.form then Reject(BadRequest, Text(MissingMapParam))
    else Dispatch(req, parse, order, req.form[OperationsField], req.form[MapField])
  }

  /** The middleware with the absence checks as the source writes them: they test the address
      of a local variable, which is never nil, so an absent field is read as the empty text.
      Everything after those checks is the corrected `Dispatch`. */
  function HandleAsWritten(req: Request, parse: string -> Option<Json>, order: seq<string>): (r: Response)
    requires OrdersMap(order, parse, FormValue(req.form, MapField))
    ensures !IsMultipartPost(req) ==> r == Forward(Original)
    ensures r.Reject? ==> r == Reject(BadRequest, Text(InvalidMapParam))
  {
    if !IsMultipartPost(req) then Forward(Original)
    else Dispatch(req, parse, order, FormValue(req.form, OperationsField), FormValue(req.form, MapField))
  }

  /** As written, a multipart POST without `operations` is handed on, body not replaced, rather than refused,
      since the empty text is not JSON. */
  lemma MissingOperationsAsWritten(req: Request, parse: string -> Option<Json>, order: seq<string>)
    requires OrdersMap(order, parse, FormValue(req.form, MapField))
    requires IsMultipartPost(req) && OperationsField !in req.form && parse("") == None
    ensures HandleAsWritten(req, parse, order) == Forward(Original)
    ensures Handle(req, parse, order) == Reject(BadRequest, Text(MissingOperationsParam))
  {
  }

  /** As written, a single-mode request without `map` is refused as an invalid map, not as a
      missing one. */
  lemma MissingMapAsWritten(req: Request, parse: string -> Option<Json>, order: seq<string>)
    requires IsMultipartPost(req) && OperationsField in req.form && MapField !in req.form
    requires DecodeOperations(parse, req.form[OperationsField]).Single? && parse("") == None
    ensures HandleAsWritten(req, parse, order) == Reject(BadRequest, Text(InvalidMapParam))
    ensures Handle(req, parse, order) == Reject(BadRequest, Text(MissingMapParam))
  {
  }

  /** What a rewritten pass hands on: the body built from the single-mode rewrite. */
  lemma RewrittenBodyOfHandle(req: Request, parse: string -> Option<Json>, order: seq<string>)
    requires MapField in req.form ==> OrdersMap(order, parse, req.form[MapField])
    requires Handle(req, parse, order).Forward? && Handle(req, parse, order).body.Rewritten?
    ensures var doc := DecodeOperations(parse, req.form[OperationsField]).doc;
            var f := DecodeMap(parse, req.form[MapField]).value;
            var rewritten := SingleTransformation(Obj(doc), Units(DeclaredPaths(f), order), req.uploads);
            && rewritten.Ok?
            && Handle(req, parse, order).body.json
               == RewrittenBody(FormValue(req.form, OperationNameField), rewritten.value, f)
  {
  }

  /** In single mode, when every declared path is disjoint from every other, the document in
      the rewritten body holds, at each declared path, the reference of its part whenever that
      part could be materialized; the body's `variables` and `query` are the document's. */
  lemma {:induction false} RewrittenBodyHoldsReferences(req: Request, parse: string -> Option<Json>, order: seq<string>,
                                     key: string, path: string)
    requires MapField in req.form ==> OrdersMap(order, parse, req.form[MapField])
    requires Handle(req, parse, order).Forward? && Handle(req, parse, order).body.Rewritten?
    requires var fm := DeclaredPaths(DecodeMap(parse, req.form[MapField]).value);
             var us := Units(fm, order);
             forall i, j :: 0 <= i < |us| && 0 <= j < |us| && i != j ==> Disjoint(Split(us[i].path), Split(us[j].path))
    requires var fm := DeclaredPaths(DecodeMap(parse, req.form[MapField]).value);
             key in fm && path in fm[key]
    requires Materialize(req.uploads, key).Ok?
    ensures var body := Handle(req, parse, order).body.json;
            && body.fields["variables"] == Member(body.fields[OperationsField], "variables")
            && body.fields["query"] == Member(body.fields[OperationsField], "query")
            && Resolve(body.fields[OperationsField], Split(path)) == Ok(ToJson(Materialize(req.uploads, key).value.ref))
  {
    var doc := DecodeOperations(parse, req.form[OperationsField]).doc;
    var fm := DeclaredPaths(DecodeMap(parse, req.form[MapField]).value);
    assert key in order;
    var us := Units(fm, order);
    RewrittenBodyOfHandle(req, parse, order);
    var doc' := SingleTransformation(Obj(doc), us, req.uploads).value;
    var ref := Materialize(req.uploads, key).value.ref;
    assert Unit(key, path) in us;
    DeclaredPathHoldsReference(Obj(doc), us, req.uploads, key, path);
    ResolveEncoded(doc', Split(path));
  }
}

=== FILE: json_tree.dfy ===
/** Decoded JSON values: the tree the operations document is made of. */
module JsonTree {

  /** An uploaded file once materialized: its client-side name, MIME type and local copy. */
  datatype GraphQLUpload = GraphQLUpload(fileName: string, mimeType: string, filePath: string)

  /** A decoded JSON value. Numbers are kept as integers: the middleware never inspects them.
      `Ref` is the `*GraphQLUpload` the middleware stores in the document: decoding text never
      yields one, and it is neither an object nor an array until the document is encoded. */
  datatype Json =
    | Null
    | Bool(b: bool)
    | Num(n: int)
    | Str(s: string)
    | Obj(fields: map<string, Json>)
    | Arr(items: seq<Json>)
    | Ref(upload: GraphQLUpload)

  /** Indexing a decoded object by key, where an absent key reads as null (Go's `m[k]`). */
  function Member(j: Json, key: string): Json
  {
    if j.Obj? && key in j.fields then j.fields[key] else Null
  }
}

=== FILE: materializer.dfy ===
/** Copying one uploaded file part to temporary storage and writing its reference into a
    container (`addFileToOperations`). */
module Materializer {
  import opened Errors
  import opened JsonTree
  import opened Segments
  import opened Scalar

  /** A file part of the multipart form: the client's file name, the part's `Content-Type`
      header (empty when absent), and what reading the whole part yields. */
  datatype FilePart = FilePart(fileName: string, contentType: string, content: Result<seq<byte>, IoError>)

  /** What the materializer can reach: the form's file parts by field name, the temporary
      directory, the paths under it where writing a file fails, and a number no other request
      shares (the uniqueness a server gets from a counter or a random suffix). */
  datatype Uploads = Uploads(parts: map<string, FilePart>, tempDir: string, unwritable: set<string>,
                             serial: nat)

  /** Why a part could not be materialized; the source logs each and moves on. */
  datatype FileFault = AccessFault | PartReadFault(e: IoError) | WriteFault

  /** A materialized part: its reference and the bytes stored at the reference's path. */
  datatype Stored = Stored(ref: GraphQLUpload, data: seq<byte>)

  /** How a part's copy is named under the temporary directory. `ClientName` is the client's
      file name alone, as middleware.go names it; `Tagged` puts the request's serial number
      and the part's form field in front of it. */
  datatype Naming = ClientName | Tagged

  /** The prefix `Tagged` puts in front of the client's file name: the serial number, the
      field's length and the field itself, each followed by a dash. The length makes the field
      recoverable whatever dashes it or the file name hold. */
  function Tag(serial: nat, key: string): string
  {
    Numeral(serial) + "-" + Numeral(|key|) + "-" + key + "-"
  }

  /** The local path of the copy of the part `key` whose client file name is `fileName`. */
  function TempPath(up: Uploads, naming: Naming, key: string, fileName: string): string
  {
    match naming
    case ClientName => up.tempDir + "/" + fileName
    case Tagged => up.tempDir + "/" + Tag(up.serial, key) + fileName
  }

  /** Accesses the part named `key`, reads it whole and writes it under the temporary
      directory with the given naming; the reference carries the part's name and MIME type
      and the copy's path. */
  function Copy(up: Uploads, naming: Naming, key: string): (r: Result<Stored, FileFault>)
    ensures r == Err(AccessFault) <==> key !in up.parts
    ensures r.Err? && r.error.PartReadFault? <==> key in up.parts && up.parts[key].content.Err?
    ensures r.Ok? <==> key in up.parts && up.parts[key].content.Ok?
                       && TempPath(up, naming, key, up.parts[key].fileName) !in up.unwritable
    ensures r.Ok? ==> var part := up.parts[key];
                      && r.value.ref.fileName == part.fileName
                      && r.value.ref.mimeType == part.contentType
                      && r.value.ref.filePath == TempPath(up, naming, key, part.fileName)
                      && r.value.data == part.content.value
  {
    if key !in up.parts then Err(AccessFault)
    else
      var part := up.parts[key];
      match part.content
      case Err(e) => Err(PartReadFault(e))
      case Ok(data) =>
        var name := TempPath(up, naming, key, part.fileName);
        if name in up.unwritable then Err(WriteFault)
        else Ok(Stored(GraphQLUpload(part.fileName, part.contentType, name), data))
  }

  /** The copy as middleware.go makes it: named after the client's file name alone. */
  function MaterializeAsWritten(up: Uploads, key: string): (r: Result<Stored, FileFault>)
    ensures r.Ok? ==> r.value.ref.filePath == up.tempDir + "/" + r.value.ref.fileName
  {
    Copy(up, ClientName, key)
  }

  /** The copy the model uses: named after the request, the form field and the client's file
      name, so that no two parts share a path. */
  function Materialize(up: Uploads, key: string): (r: Result<Stored, FileFault>)
    ensures r.Ok? ==> r.value.ref.filePath == up.tempDir + "/" + Tag(up.serial, key) + r.value.ref.fileName
  {
    Copy(up, Tagged, key)
  }

  /** The index of the first dash, or the length when there is none. */
  function FirstDash(x: string): (i: nat)
    ensures i <= |x|
    ensures forall j :: 0 <= j < i ==> x[j] != '-'
    ensures i < |x| ==> x[i] == '-'
    decreases |x|
  {
    if |x| == 0 || x[0] == '-' then 0 else 1 + FirstDash(x[1..])
  }

  /** A numeral followed by a dash is read back up to that dash. */
  lemma {:induction false} DigitsBeforeDash(s: string, rest: string)
    requires AllDigits(s)
    ensures FirstDash(s + "-" + rest) == |s|
    decreases |s|
  {
    var x := s + "-" + rest;
    if |s| == 0 {
      assert x[0] == '-';
    } else {
      assert x[0] == s[0] && IsDigit(s[0]);
      assert x[1..] == s[1..] + "-" + rest;
      assert AllDigits(s[1..]) by {
        forall i | 0 <= i < |s[1..]| ensures IsDigit(s[1..][i]) {
          assert s[1..][i] == s[i + 1];
        }
      }
      DigitsBeforeDash(s[1..], rest);
    }
  }

  /** A numeral and a dash in front of a text: equal texts of this shape have equal numbers
      and equal remainders. */
  lemma NumeralDashInjective(m: nat, r1: string, n: nat, r2: string)
    ensures Numeral(m) + "-" + r1 == Numeral(n) + "-" + r2 ==> m == n && r1 == r2
  {
    var x := Numeral(m) + "-" + r1;
    if x == Numeral(n) + "-" + r2 {
      DigitsBeforeDash(Numeral(m), r1);
      DigitsBeforeDash(Numeral(n), r2);
      assert Numeral(m) == x[..FirstDash(x)] == Numeral(n);
      ParseNumeral(m);
      ParseNumeral(n);
      assert r1 == x[|Numeral(m)| + 1..] == r2;
    }
  }

  /** A tag determines the serial number and the field it was made from. */
  lemma TagInjective(s1: nat, k1: string, f1: string, s2: nat, k2: string, f2: string)
    ensures Tag(s1, k1) + f1 == Tag(s2, k2) + f2 ==> s1 == s2 && k1 == k2
  {
    var r1 := Numeral(|k1|) + "-" + (k1 + "-" + f1);
    var r2 := Numeral(|k2|) + "-" + (k2 + "-" + f2);
    assert Tag(s1, k1) + f1 == Numeral(s1) + "-" + r1;
    assert Tag(s2, k2) + f2 == Numeral(s2) + "-" + r2;
    NumeralDashInjective(s1, r1, s2, r2);
    NumeralDashInjective(|k1|, k1 + "-" + f1, |k2|, k2 + "-" + f2);
    if r1 == r2 && |k1| == |k2| {
      var t := k1 + "-" + f1;
      assert k1 == t[..|k1|];
      assert t == k2 + "-" + f2;
    }
  }

  /** Two tagged copies in the same temporary directory share a path only when they belong
      to the same request and the same form field, whatever the client's file names. */
  lemma TaggedPathsDistinct(up1: Uploads, k1: string, f1: string, up2: Uploads, k2: string, f2: string)
    requires up1.tempDir == up2.tempDir
    ensures TempPath(up1, Tagged, k1, f1) == TempPath(up2, Tagged, k2, f2) ==> up1.serial == up2.serial && k1 == k2
  {
    var d := up1.tempDir + "/";
    var p1 := TempPath(up1, Tagged, k1, f1);
    var p2 := TempPath(up2, Tagged, k2, f2);
    assert p1 == d + (Tag(up1.serial, k1) + f1);
    assert p2 == d + (Tag(up2.serial, k2) + f2);
    if p1 == p2 {
      assert Tag(up1.serial, k1) + f1 == p1[|d|..] == Tag(up2.serial, k2) + f2;
      TagInjective(up1.serial, k1, f1, up2.serial, k2, f2);
    }
  }

  /** As middleware.go names copies, two parts with the same client file name share one path,
      whichever fields they came from. */
  lemma SameNameSharesPathAsWritten(up: Uploads, k1: string, k2: string)
    requires MaterializeAsWritten(up, k1).Ok? && MaterializeAsWritten(up, k2).Ok?
    ensures MaterializeAsWritten(up, k1).value.ref.filePath == MaterializeAsWritten(up, k2).value.ref.filePath
            <==> up.parts[k1].fileName == up.parts[k2].fileName
  {
    var d := up.tempDir + "/";
    var f1 := up.parts[k1].fileName;
    var f2 := up.parts[k2].fileName;
    if d + f1 == d + f2 {
      assert f1 == (d + f1)[|d|..] == f2;
    }
  }

  /** The temporary directory after the parts of `keys` are copied in that order: each part
      that could be copied replaces whatever was stored at its path. */
  function StoreParts(fs: FileSystem, up: Uploads, naming: Naming, keys: seq<string>): (r: FileSystem)
    ensures fs.files.Keys <= r.files.Keys
    ensures r.uncreatable == fs.uncreatable && r.writeFaults == fs.writeFaults && r.flushFault == fs.flushFault
    decreases |keys|
  {
    if |keys| == 0 then fs
    else
      var before := StoreParts(fs, up, naming, keys[..|keys| - 1]);
      match Copy(up, naming, keys[|keys| - 1])
      case Err(_) => before
      case Ok(stored) => before.(files := before.files[stored.ref.filePath := Chunks(stored.data)])
  }

  /** With tagged names, every copied part's reference opens, after all the copies, the file
      holding that part's bytes: no later copy overwrites it. */
  lemma {:induction false} StoredPartReadsBack(fs: FileSystem, up: Uploads, keys: seq<string>, k: string)
    requires k in keys && Materialize(up, k).Ok?
    ensures var stream := CreateReadStream(Materialize(up, k).value.ref, StoreParts(fs, up, Tagged, keys));
            && stream == Ok(Chunks(up.parts[k].content.value))
            && Bytes(stream.value) == up.parts[k].content.value
    decreases |keys|
  {
    var last := keys[|keys| - 1];
    var path := Materialize(up, k).value.ref.filePath;
    if last != k {
      assert k in keys[..|keys| - 1];
      StoredPartReadsBack(fs, up, keys[..|keys| - 1], k);
      if Copy(up, Tagged, last).Ok? {
        TaggedPathsDistinct(up, last, up.parts[last].fileName, up, k, up.parts[k].fileName);
      }
    }
    ChunksRoundTrip(up.parts[k].content.value);
  }

  /** As middleware.go names copies, of two parts with the same client file name copied one
      after the other, the first one's reference opens the second one's bytes. */
  lemma OverwrittenAsWritten(fs: FileSystem, up: Uploads, k1: string, k2: string)
    requires MaterializeAsWritten(up, k1).Ok? && MaterializeAsWritten(up, k2).Ok?
    requires up.parts[k1].fileName == up.parts[k2].fileName
    ensures var stream := CreateReadStream(MaterializeAsWritten(up, k1).value.ref, StoreParts(fs, up, ClientName, [k1, k2]));
            && stream == Ok(Chunks(up.parts[k2].content.value))
            && Bytes(stream.value) == up.parts[k2].content.value
  {
    assert [k1, k2][..1] == [k1];
    assert [k1][..0] == [];
    ChunksRoundTrip(up.parts[k2].content.value);
  }

  /** Two fields both uploading `a.png`, holding the byte 1 and the byte 2: as written, the
      first field's reference reads back 2; with tagged names it reads back 1. */
  lemma SampleOverwriteAsWritten(fs: FileSystem)
    ensures var up := Uploads(map["0" := FilePart("a.png", "image/png", Ok([1])),
                                  "1" := FilePart("a.png", "image/png", Ok([2]))], "/tmp", {}, 0);
            && MaterializeAsWritten(up, "0").Ok?
            && Bytes(CreateReadStream(MaterializeAsWritten(up, "0").value.ref,
                                      StoreParts(fs, up, ClientName, ["0", "1"])).value) == [2]
            && Materialize(up, "0").Ok?
            && Bytes(CreateReadStream(Materialize(up, "0").value.ref,
                                      StoreParts(fs, up, Tagged, ["0", "1"])).value) == [1]
  {
    var up := Uploads(map["0" := FilePart("a.png", "image/png", Ok([1])),
                          "1" := FilePart("a.png", "image/png", Ok([2]))], "/tmp", {}, 0);
    OverwrittenAsWritten(fs, up, "0", "1");
    StoredPartReadsBack(fs, up, ["0", "1"], "0");
  }

  /** `addFileToOperations`: binds `key` in the container to the reference of the part named
      `fieldName`, or returns the container unchanged when the part cannot be materialized. */
  function AddFileToOperations(container: map<string, Json>, up: Uploads, fieldName: string, key: string)
    : (r: map<string, Json>)
    ensures Materialize(up, fieldName).Err? ==> r == container
    ensures Materialize(up, fieldName).Ok? ==>
              && r.Keys == container.Keys + {key}
              && r[key] == Ref(Materialize(up, fieldName).value.ref)
              && forall k :: k in container && k != key ==> r[k] == container[k]
  {
    match Materialize(up, fieldName)
    case Err(_) => container
    case Ok(stored) => container[key := Ref(stored.ref)]
  }

  /** What the middleware writes is what the scalar decodes: once the document is encoded, a
      resolver receiving the written value gets the part's name and MIME type and the path of
      its copy. */
  lemma WrittenReferenceDecodes(container: map<string, Json>, up: Uploads, fieldName: string, key: string,
                                prev: GraphQLUpload)
    requires fieldName in up.parts && up.parts[fieldName].content.Ok?
    requires TempPath(up, Tagged, fieldName, up.parts[fieldName].fileName) !in up.unwritable
    ensures var written := AddFileToOperations(container, up, fieldName, key);
            var part := up.parts[fieldName];
            && key in written
            && UnmarshalGraphQL(prev, Encode(written[key]))
               == Ok(GraphQLUpload(part.fileName, part.contentType, TempPath(up, Tagged, fieldName, part.fileName)))
  {
    UnmarshalRoundTrip(prev, Materialize(up, fieldName).value.ref);
  }
}

=== FILE: paths.dfy ===
/** Resolving a declared path inside the operations document and writing at its end. */
module Paths {
  import opened Errors
  import opened JsonTree
  import opened Segments
  import opened Scalar

  /** One navigation step: an object is entered by key, an array by a decimal index. */
  function Child(node: Json, seg: string): (r: Result<Json, PathError>)
    ensures node.Obj? ==> (r.Ok? <==> seg in node.fields)
    ensures node.Arr? ==> (r.Ok? <==> ParseIndex(seg).Some? && ParseIndex(seg).value < |node.items|)
    ensures !node.Obj? && !node.Arr? ==> r == Err(UnresolvedPath)
  {
    match node
    case Obj(fields) => if seg in fields then Ok(fields[seg]) else Err(UnresolvedPath)
    case Arr(items) =>
      (match ParseIndex(seg)
       case None => Err(InvalidPathSegment)
       case Some(i) => if i < |items| then Ok(items[i]) else Err(IndexOutOfRange))
    case _ => Err(UnresolvedPath)
  }

  /** The node the segments lead to; the resolver never creates what is missing. */
  function Resolve(node: Json, segs: seq<string>): Result<Json, PathError>
    decreases |segs|
  {
    if |segs| == 0 then Ok(node)
    else
      var c :- Child(node, segs[0]);
      Resolve(c, segs[1..])
  }

  /** `findField`, corrected: the object the segments lead to, through objects and arrays. */
  function Locate(node: Json, segs: seq<string>): (r: Result<map<string, Json>, PathError>)
    ensures r.Ok? <==> Resolve(node, segs).Ok? && Resolve(node, segs).value.Obj?
    ensures r.Ok? ==> Resolve(node, segs) == Ok(Obj(r.value))
    ensures Resolve(node, segs).Err? ==> r == Err(Resolve(node, segs).error)
  {
    var c :- Resolve(node, segs);
    if c.Obj? then Ok(c.fields) else Err(TargetNotObject)
  }

  /** The node with the child at `seg` replaced by `c`. */
  function Replace(node: Json, seg: string, c: Json): Json
    requires Child(node, seg).Ok?
  {
    if node.Obj? then Obj(node.fields[seg := c])
    else Arr(node.items[ParseIndex(seg).value := c])
  }

  /** Binds `key` to `v` in the object the prefix leads to, rebuilding the containers on
      the way; this is the in-place map update the source performs on the shared document. */
  function SetAt(node: Json, prefix: seq<string>, key: string, v: Json): (r: Result<Json, PathError>)
    ensures |prefix| == 0 ==> (r.Ok? <==> node.Obj?)
    ensures r.Ok? ==> (r.value.Obj? <==> node.Obj?) && (r.value.Arr? <==> node.Arr?)
    ensures r.Ok? && node.Obj? ==>
              r.value.fields.Keys == node.fields.Keys + (if |prefix| == 0 then {key} else {})
    ensures r.Ok? && node.Arr? ==> |r.value.items| == |node.items|
    decreases |prefix|
  {
    if |prefix| == 0 then
      if node.Obj? then Ok(Obj(node.fields[key := v])) else Err(TargetNotObject)
    else
      var c :- Child(node, prefix[0]);
      var c' :- SetAt(c, prefix[1..], key, v);
      Ok(Replace(node, prefix[0], c'))
  }

  /** Encoding the document keeps every path that resolves: it then resolves to the encoded
      node, so a stored reference is found as its object. */
  lemma {:induction false} ResolveEncoded(node: Json, segs: seq<string>)
    requires Resolve(node, segs).Ok?
    ensures Resolve(Encode(node), segs) == Ok(Encode(Resolve(node, segs).value))
    decreases |segs|
  {
    if |segs| > 0 {
      var c := Child(node, segs[0]).value;
      assert Child(Encode(node), segs[0]) == Ok(Encode(c)) by {
        if node.Arr? {
          assert Encode(node).items[ParseIndex(segs[0]).value] == Encode(c);
        }
      }
      ResolveEncoded(c, segs[1..]);
    }
  }

  /** A member of an encoded object is the encoded member. */
  lemma EncodeMember(node: Json, key: string)
    requires node.Obj?
    ensures Member(Encode(node), key) == Encode(Member(node, key))
  {
  }

  /** Replacing one child changes that child and no other. */
  lemma ChildOfReplace(node: Json, seg: string, c: Json, other: string)
    requires Child(node, seg).Ok?
    ensures Child(Replace(node, seg, c), seg) == Ok(c)
    ensures other != seg ==> Child(Replace(node, seg, c), other) == Child(node, other)
  {
    if node.Arr? && other != seg && ParseIndex(other).Some? {
      if ParseIndex(other) == ParseIndex(seg) {
        IndexInjective(other, seg);
      }
    }
  }

  /** A write succeeds exactly when the prefix resolves to an object, and otherwise fails
      with the error resolution reports. */
  lemma {:induction false} SetAtSucceedsIff(node: Json, prefix: seq<string>, key: string, v: Json)
    ensures SetAt(node, prefix, key, v).Ok? <==> Locate(node, prefix).Ok?
    ensures SetAt(node, prefix, key, v).Err? ==> SetAt(node, prefix, key, v).error == Locate(node, prefix).error
    decreases |prefix|
  {
    if |prefix| > 0 {
      var c := Child(node, prefix[0]);
      if c.Ok? {
        SetAtSucceedsIff(c.value, prefix[1..], key, v);
      }
    }
  }

  /** After a successful write, the container holds `v` at `key` and is otherwise the same. */
  lemma {:induction false} SetAtWrites(node: Json, prefix: seq<string>, key: string, v: Json)
    requires SetAt(node, prefix, key, v).Ok?
    ensures Locate(node, prefix).Ok?
    ensures Locate(SetAt(node, prefix, key, v).value, prefix) == Ok(Locate(node, prefix).value[key := v])
    ensures Resolve(SetAt(node, prefix, key, v).value, prefix + [key]) == Ok(v)
    decreases |prefix|
  {
    var node' := SetAt(node, prefix, key, v).value;
    if |prefix| == 0 {
      assert ([] + [key])[1..] == [];
    } else {
      var s := prefix[0];
      var c := Child(node, s).value;
      SetAtWrites(c, prefix[1..], key, v);
      var c' := SetAt(c, prefix[1..], key, v).value;
      ChildOfReplace(node, s, c', s);
      assert (prefix + [key])[1..] == prefix[1..] + [key];
    }
  }

  /** A write keeps every path on the way to its container: such a path still resolves, and
      to an object exactly when it did before. */
  lemma {:induction false} SetAtKeepsPrefix(node: Json, prefix: seq<string>, key: string, v: Json, q: seq<string>)
    requires SetAt(node, prefix, key, v).Ok?
    requires q <= prefix
    ensures Resolve(node, q).Ok? && Resolve(SetAt(node, prefix, key, v).value, q).Ok?
    ensures Resolve(SetAt(node, prefix, key, v).value, q).value.Obj? <==> Resolve(node, q).value.Obj?
    decreases |q|
  {
    if |q| > 0 {
      var s := prefix[0];
      var c := Child(node, s).value;
      var c' := SetAt(c, prefix[1..], key, v).value;
      ChildOfReplace(node, s, c', s);
      assert q[1..] <= prefix[1..];
      SetAtKeepsPrefix(c, prefix[1..], key, v, q[1..]);
    }
  }

  /** A common first segment does not change which path is a prefix of which. */
  lemma ConsPrefix(s: string, a: seq<string>, b: seq<string>)
    ensures [s] + a <= [s] + b <==> a <= b
  {
    if [s] + a <= [s] + b {
      assert a == ([s] + a)[1..] == ([s] + b)[1..|a| + 1] == b[..|a|];
    }
  }

  /** After a successful write, every path that neither leads to the written container nor
      passes through the written key resolves as before: exactly the target key changes. */
  lemma {:induction false} SetAtFrame(node: Json, prefix: seq<string>, key: string, v: Json, q: seq<string>)
    requires SetAt(node, prefix, key, v).Ok?
    requires !(q <= prefix) && !(prefix + [key] <= q)
    ensures Resolve(SetAt(node, prefix, key, v).value, q) == Resolve(node, q)
    decreases |prefix|
  {
    var node' := SetAt(node, prefix, key, v).value;
    if |prefix| == 0 {
      assert prefix + [key] == [key];
      assert q[0] != key by {
        assert [key] <= q <== q[..1] == [key];
      }
    } else {
      var s := prefix[0];
      var c := Child(node, s).value;
      var c' := SetAt(c, prefix[1..], key, v).value;
      ChildOfReplace(node, s, c', q[0]);
      if q[0] == s {
        assert q == [s] + q[1..];
        assert prefix == [s] + prefix[1..];
        assert prefix + [key] == [s] + (prefix[1..] + [key]);
        ConsPrefix(s, q[1..], prefix[1..]);
        ConsPrefix(s, prefix[1..] + [key], q[1..]);
        SetAtFrame(c, prefix[1..], key, v, q[1..]);
      }
    }
  }

  /** Neither path is a prefix of the other: writes at their ends go to separate places. */
  predicate Disjoint(a: seq<string>, b: seq<string>) {
    !(a <= b) && !(b <= a)
  }

  /** Replacing the same child twice keeps only the second replacement. */
  lemma ReplaceTwice(node: Json, seg: string, a: Json, b: Json)
    requires Child(node, seg).Ok?
    ensures Child(Replace(node, seg, a), seg).Ok?
    ensures Replace(Replace(node, seg, a), seg, b) == Replace(node, seg, b)
  {
    ChildOfReplace(node, seg, a, seg);
  }

  /** Replacing two different children gives the same node in either order. */
  lemma ReplaceCommutes(node: Json, s1: string, a: Json, s2: string, b: Json)
    requires s1 != s2 && Child(node, s1).Ok? && Child(node, s2).Ok?
    ensures Child(Replace(node, s1, a), s2).Ok? && Child(Replace(node, s2, b), s1).Ok?
    ensures Replace(Replace(node, s1, a), s2, b) == Replace(Replace(node, s2, b), s1, a)
  {
    ChildOfReplace(node, s1, a, s2);
    ChildOfReplace(node, s2, b, s1);
    if node.Arr? {
      if ParseIndex(s1) == ParseIndex(s2) {
        IndexInjective(s1, s2);
      }
    }
  }

  /** A write into an object and a write below one of its other keys commute. */
  lemma WritesCommuteBelow(node: Json, k1: string, v1: Json, pre2: seq<string>, k2: string, v2: Json)
    requires |pre2| > 0 && pre2[0] != k1
    requires SetAt(node, [], k1, v1).Ok? && SetAt(node, pre2, k2, v2).Ok?
    ensures SetAt(SetAt(node, [], k1, v1).value, pre2, k2, v2).Ok?
    ensures SetAt(SetAt(node, pre2, k2, v2).value, [], k1, v1).Ok?
    ensures SetAt(SetAt(node, [], k1, v1).value, pre2, k2, v2)
            == SetAt(SetAt(node, pre2, k2, v2).value, [], k1, v1)
  {
    var s := pre2[0];
    var n1 := SetAt(node, [], k1, v1).value;
    var n2 := SetAt(node, pre2, k2, v2).value;
    var c := Child(node, s).value;
    var c' := SetAt(c, pre2[1..], k2, v2).value;
    assert n1 == Obj(node.fields[k1 := v1]);
    assert Child(n1, s) == Ok(c);
    assert SetAt(n1, pre2, k2, v2) == Ok(Obj(node.fields[k1 := v1][s := c']));
    assert n2 == Obj(node.fields[s := c']);
    assert SetAt(n2, [], k1, v1) == Ok(Obj(node.fields[s := c'][k1 := v1]));
    assert node.fields[s := c'][k1 := v1] == node.fields[k1 := v1][s := c'];
  }

  /** Writes below two different children of the same node commute. */
  lemma WritesCommuteApart(node: Json, pre1: seq<string>, k1: string, v1: Json,
                           pre2: seq<string>, k2: string, v2: Json)
    requires |pre1| > 0 && |pre2| > 0 && pre1[0] != pre2[0]
    requires SetAt(node, pre1, k1, v1).Ok? && SetAt(node, pre2, k2, v2).Ok?
    ensures SetAt(SetAt(node, pre1, k1, v1).value, pre2, k2, v2).Ok?
    ensures SetAt(SetAt(node, pre2, k2, v2).value, pre1, k1, v1).Ok?
    ensures SetAt(SetAt(node, pre1, k1, v1).value, pre2, k2, v2)
            == SetAt(SetAt(node, pre2, k2, v2).value, pre1, k1, v1)
  {
    var s1 := pre1[0];
    var s2 := pre2[0];
    var c1' := SetAt(Child(node, s1).value, pre1[1..], k1, v1).value;
    var c2' := SetAt(Child(node, s2).value, pre2[1..], k2, v2).value;
    ChildOfReplace(node, s1, c1', s2);
    ChildOfReplace(node, s2, c2', s1);
    ReplaceCommutes(node, s1, c1', s2, c2');
  }

  /** Writes below the same child commute when they commute inside that child. */
  lemma WritesCommuteWithin(node: Json, pre1: seq<string>, k1: string, v1: Json,
                            pre2: seq<string>, k2: string, v2: Json)
    requires |pre1| > 0 && |pre2| > 0 && pre1[0] == pre2[0]
    requires SetAt(node, pre1, k1, v1).Ok? && SetAt(node, pre2, k2, v2).Ok?
    requires var c := Child(node, pre1[0]).value;
             && SetAt(SetAt(c, pre1[1..], k1, v1).value, pre2[1..], k2, v2).Ok?
             && SetAt(SetAt(c, pre1[1..], k1, v1).value, pre2[1..], k2, v2)
                == SetAt(SetAt(c, pre2[1..], k2, v2).value, pre1[1..], k1, v1)
    ensures SetAt(SetAt(node, pre1, k1, v1).value, pre2, k2, v2).Ok?
    ensures SetAt(SetAt(node, pre2, k2, v2).value, pre1, k1, v1).Ok?
    ensures SetAt(SetAt(node, pre1, k1, v1).value, pre2, k2, v2)
            == SetAt(SetAt(node, pre2, k2, v2).value, pre1, k1, v1)
  {
    var s := pre1[0];
    var c := Child(node, s).value;
    var c1' := SetAt(c, pre1[1..], k1, v1).value;
    var c2' := SetAt(c, pre2[1..], k2, v2).value;
    ChildOfReplace(node, s, c1', s);
    ChildOfReplace(node, s, c2', s);
    var c12 := SetAt(c1', pre2[1..], k2, v2).value;
    var c21 := SetAt(c2', pre1[1..], k1, v1).value;
    ReplaceTwice(node, s, c1', c12);
    ReplaceTwice(node, s, c2', c21);
  }

  /** Two writes at disjoint paths that each succeed on the document succeed in either order
      and give the same document: the order in which declared paths are processed does not
      matter when they are disjoint. */
  lemma {:induction false} WritesCommute(node: Json, pre1: seq<string>, k1: string, v1: Json,
                                         pre2: seq<string>, k2: string, v2: Json)
    requires Disjoint(pre1 + [k1], pre2 + [k2])
    requires SetAt(node, pre1, k1, v1).Ok? && SetAt(node, pre2, k2, v2).Ok?
    ensures SetAt(SetAt(node, pre1, k1, v1).value, pre2, k2, v2).Ok?
    ensures SetAt(SetAt(node, pre2, k2, v2).value, pre1, k1, v1).Ok?
    ensures SetAt(SetAt(node, pre1, k1, v1).value, pre2, k2, v2)
            == SetAt(SetAt(node, pre2, k2, v2).value, pre1, k1, v1)
    decreases |pre1| + |pre2|
  {
    if |pre1| == 0 && |pre2| == 0 {
      assert [k1] <= [k2] <== k1 == k2;
      assert node.fields[k1 := v1][k2 := v2] == node.fields[k2 := v2][k1 := v1];
    } else if |pre1| == 0 {
      assert pre2 + [k2] == [pre2[0]] + (pre2[1..] + [k2]);
      assert [k1] <= pre2 + [k2] <== pre2[0] == k1;
      assert pre1 == [];
      WritesCommuteBelow(node, k1, v1, pre2, k2, v2);
    } else if |pre2| == 0 {
      assert pre1 + [k1] == [pre1[0]] + (pre1[1..] + [k1]);
      assert [k2] <= pre1 + [k1] <== pre1[0] == k2;
      assert pre2 == [];
      WritesCommuteBelow(node, k2, v2, pre1, k1, v1);
    } else if pre1[0] == pre2[0] {
      var s := pre1[0];
      assert pre1 + [k1] == [s] + (pre1[1..] + [k1]);
      assert pre2 + [k2] == [s] + (pre2[1..] + [k2]);
      ConsPrefix(s, pre1[1..] + [k1], pre2[1..] + [k2]);
      ConsPrefix(s, pre2[1..] + [k2], pre1[1..] + [k1]);
      WritesCommute(Child(node, s).value, pre1[1..], k1, v1, pre2[1..], k2, v2);
      WritesCommuteWithin(node, pre1, k1, v1, pre2, k2, v2);
    } else {
      WritesCommuteApart(node, pre1, k1, v1, pre2, k2, v2);
    }
  }

  /** The source's `findField` loop: objects are entered by key (a missing key reads as
      null), every other node is kept as it is, and the end must be an object. Its array
      branch can never match a decoded document, so arrays are never entered. */
  function Walk(node: Json, segs: seq<string>): Json
    decreases |segs|
  {
    if |segs| == 0 then node
    else Walk(if node.Obj? then Member(node, segs[0]) else node, segs[1..])
  }

  function FindFieldAsWritten(node: Json, segs: seq<string>): (r: Result<map<string, Json>, PathError>)
    ensures r.Ok? <==> Walk(node, segs).Obj?
  {
    var n := Walk(node, segs);
    if n.Obj? then Ok(n.fields) else Err(TargetNotObject)
  }

  /** The walk never leaves a node that is not an object. */
  lemma {:induction false} WalkStuck(node: Json, segs: seq<string>)
    requires !node.Obj?
    ensures Walk(node, segs) == node
    decreases |segs|
  {
    if |segs| > 0 {
      WalkStuck(node, segs[1..]);
    }
  }

  /** Wherever the source's `findField` finds a container, the corrected resolver finds the
      same one. */
  lemma {:induction false} LocateExtendsFindField(node: Json, segs: seq<string>)
    requires FindFieldAsWritten(node, segs).Ok?
    ensures Locate(node, segs) == FindFieldAsWritten(node, segs)
    decreases |segs|
  {
    if |segs| > 0 {
      if !node.Obj? {
        WalkStuck(node, segs[1..]);
        assert false;
      }
      if segs[0] !in node.fields {
        WalkStuck(Null, segs[1..]);
        assert false;
      }
      LocateExtendsFindField(node.fields[segs[0]], segs[1..]);
    }
  }

  /** A document whose `photos` array holds an object: the source's `findField` cannot reach
      into the array, the corrected resolver can. */
  lemma ArrayPathAsWritten()
    ensures var doc := Obj(map["photos" := Arr([Obj(map[])])]);
            && FindFieldAsWritten(doc, ["photos", "0"]).Err?
            && Locate(doc, ["photos", "0"]) == Ok(map[])
  {
    var doc := Obj(map["photos" := Arr([Obj(map[])])]);
    assert ParseIndex("0") == Some(0) by {
      ParseNumeral(0);
    }
    assert Walk(doc, ["photos", "0"]) == Walk(Arr([Obj(map[])]), ["0"]);
    WalkStuck(Arr([Obj(map[])]), ["0"]);
    assert ["photos", "0"][1..] == ["0"];
  }
}

=== FILE: scalar.dfy ===
/** The `Upload` scalar: the value GraphQL resolvers receive for an uploaded file. */
module Scalar {
  import opened Errors
  import opened JsonTree

  newtype byte = x: int | 0 <= x < 256

  /** The JSON keys of the three fields of an upload reference. */
  const FileNameKey: string := "filename"
  const MimeTypeKey: string := "mimetype"
  const FilePathKey: string := "filepath"

  /** Size of the buffer `WriteFile` reads into: 1 MiB. */
  const BufferSize: nat := 1024 * 1024

  /** The message `UnmarshalGraphQL` reports for an input that is not an object. */
  const NoImplementation: string := "no implementation for the type specified"

  /** The scalar answers to the GraphQL type name `Upload` and to no other. */
  function ImplementsGraphQLType(name: string): (r: bool)
    ensures r <==> name == "Upload"
  {
    name == "Upload"
  }

  /** The JSON object an upload reference is encoded as (its struct tags). */
  function ToJson(u: GraphQLUpload): (j: Json)
    ensures j.Obj? && j.fields.Keys == {FileNameKey, MimeTypeKey, FilePathKey}
  {
    Obj(map[FileNameKey := Str(u.fileName), MimeTypeKey := Str(u.mimeType), FilePathKey := Str(u.filePath)])
  }

  /** Decoding one string field: a string value replaces the old one; an absent key, a null
      or a value of another type leaves it as it was (the decoding error is discarded). */
  function StringField(fields: map<string, Json>, key: string, current: string): string
  {
    if key in fields && fields[key].Str? then fields[key].s else current
  }

  /** The document as `json.Marshal` writes it: every stored reference becomes the object it
      is encoded as, and everything else keeps its shape and its keys. */
  function Encode(j: Json): (e: Json)
    ensures j.Ref? ==> e == ToJson(j.upload)
    ensures e.Obj? <==> j.Obj? || j.Ref?
    ensures j.Obj? ==> e.fields.Keys == j.fields.Keys
    ensures j.Arr? ==> e.Arr? && |e.items| == |j.items|
    ensures !j.Obj? && !j.Arr? && !j.Ref? ==> e == j
    decreases j
  {
    match j
    case Ref(u) => ToJson(u)
    case Obj(fields) => Obj(map k | k in fields :: Encode(fields[k]))
    case Arr(items) => Arr(seq(|items|, i requires 0 <= i < |items| => Encode(items[i])))
    case _ => j
  }

  /** `UnmarshalGraphQL` on a receiver currently holding `prev`: an object input decodes
      field by field over `prev`; any other input is refused. */
  function UnmarshalGraphQL(prev: GraphQLUpload, input: Json): (r: Result<GraphQLUpload, string>)
    ensures !input.Obj? <==> r == Err(NoImplementation)
    ensures input.Obj? && FileNameKey in input.fields && input.fields[FileNameKey].Str?
            ==> r.Ok? && r.value.fileName == input.fields[FileNameKey].s
    ensures input.Obj? && MimeTypeKey in input.fields && input.fields[MimeTypeKey].Str?
            ==> r.Ok? && r.value.mimeType == input.fields[MimeTypeKey].s
    ensures input.Obj? && FilePathKey in input.fields && input.fields[FilePathKey].Str?
            ==> r.Ok? && r.value.filePath == input.fields[FilePathKey].s
    ensures input.Obj? && FileNameKey !in input.fields ==> r.Ok? && r.value.fileName == prev.fileName
    ensures input.Obj? && MimeTypeKey !in input.fields ==> r.Ok? && r.value.mimeType == prev.mimeType
    ensures input.Obj? && FilePathKey !in input.fields ==> r.Ok? && r.value.filePath == prev.filePath
    ensures input.Obj? ==> r.Ok?
    ensures input.Obj? && FileNameKey in input.fields && !input.fields[FileNameKey].Str?
            ==> r.Ok? && r.value.fileName == prev.fileName
    ensures input.Obj? && MimeTypeKey in input.fields && !input.fields[MimeTypeKey].Str?
            ==> r.Ok? && r.value.mimeType == prev.mimeType
    ensures input.Obj? && FilePathKey in input.fields && !input.fields[FilePathKey].Str?
            ==> r.Ok? && r.value.filePath == prev.filePath
  {
    match input
    case Obj(fields) =>
      Ok(GraphQLUpload(
           StringField(fields, FileNameKey, prev.fileName),
           StringField(fields, MimeTypeKey, prev.mimeType),
           StringField(fields, FilePathKey, prev.filePath)))
    case _ => Err(NoImplementation)
  }

  /** Encoding a reference and decoding it again gives the same reference, whatever the
      receiver held before. */
  lemma UnmarshalRoundTrip(prev: GraphQLUpload, u: GraphQLUpload)
    ensures UnmarshalGraphQL(prev, ToJson(u)) == Ok(u)
  {
  }

  /** What one `Read` call returns besides its bytes. */
  datatype ReadStatus = More | AtEof | ReadFault(fault: IoError)

  /** The bytes of one `Read` into the 1 MiB buffer: never more than the buffer holds. */
  type Chunk = s: seq<byte> | |s| <= BufferSize

  datatype ReadResult = ReadResult(data: Chunk, status: ReadStatus)

  /** The file system as the scalar sees it. `files` gives, for each path that can be opened,
      what successive reads of it return; a read past the listed ones returns no bytes and
      end of file. `writeFaults` names the write calls (counted from 0) that fail. */
  datatype FileSystem = FileSystem(
    files: map<string, seq<ReadResult>>,
    uncreatable: map<string, IoError>,
    writeFaults: map<nat, IoError>,
    flushFault: Option<IoError>)

  /** `CreateReadStream`: opening the reference's local copy, which fails when it is gone. */
  function CreateReadStream(u: GraphQLUpload, fs: FileSystem): (r: Result<seq<ReadResult>, IoError>)
    ensures r.Ok? <==> u.filePath in fs.files
    ensures r.Ok? ==> r.value == fs.files[u.filePath]
  {
    if u.filePath in fs.files then Ok(fs.files[u.filePath])
    else Err(IoError("open " + u.filePath + ": no such file or directory"))
  }

  /** The result of the i-th read of a stream. */
  function ReadAt(steps: seq<ReadResult>, i: nat): ReadResult
  {
    if i < |steps| then steps[i] else ReadResult([], AtEof)
  }

  /** The copy loop goes on past read i: it returned bytes, no error, and the write succeeded. */
  predicate Continues(steps: seq<ReadResult>, faults: map<nat, IoError>, i: nat)
  {
    i < |steps| && !steps[i].status.ReadFault? && |steps[i].data| > 0 && i !in faults
  }

  /** The read at which the copy loop, having reached read i, stops. */
  function StopAt(steps: seq<ReadResult>, faults: map<nat, IoError>, i: nat): (n: nat)
    requires i <= |steps|
    ensures i <= n <= |steps|
    ensures forall j :: i <= j < n ==> Continues(steps, faults, j)
    ensures !Continues(steps, faults, n)
    decreases |steps| - i
  {
    if Continues(steps, faults, i) then StopAt(steps, faults, i + 1) else i
  }

  /** The concatenation of the bytes of the given reads. */
  function Bytes(steps: seq<ReadResult>): seq<byte>
  {
    if |steps| == 0 then [] else Bytes(steps[..|steps| - 1]) + steps[|steps| - 1].data
  }

  /** How the copy ends once it stops at read n: that read's error, the failed write of its
      bytes, the flush error, or success. */
  function CopyResult(steps: seq<ReadResult>, fs: FileSystem, n: nat): Result<(), IoError>
  {
    if n < |steps| && steps[n].status.ReadFault? then Err(steps[n].status.fault)
    else if n < |steps| && |steps[n].data| > 0 && n in fs.writeFaults then Err(fs.writeFaults[n])
    else if fs.flushFault.Some? then Err(fs.flushFault.value)
    else Ok(())
  }

  /** `WriteFile(name)`: copies the reference's local file to `name` through a 1 MiB buffer.
      `written` is what the destination was given, `created` whether it was created, and
      `closed` whether its deferred close ran. */
  method WriteFile(u: GraphQLUpload, name: string, fs: FileSystem)
    returns (r: Result<(), IoError>, written: seq<byte>, created: bool, closed: bool)
    ensures CreateReadStream(u, fs).Err? ==> r == Err(CreateReadStream(u, fs).error) && !created
    ensures CreateReadStream(u, fs).Ok? && name in fs.uncreatable
            ==> r == Err(fs.uncreatable[name]) && !created
    ensures created <==> CreateReadStream(u, fs).Ok? && name !in fs.uncreatable
    ensures closed == created
    ensures !created ==> written == []
    ensures created ==>
              var steps := fs.files[u.filePath];
              var n := StopAt(steps, fs.writeFaults, 0);
              && written == Bytes(steps[..n])
              && r == CopyResult(steps, fs, n)
  {
    written := [];
    created := false;
    closed := false;
    var stream := CreateReadStream(u, fs);
    if stream.Err? {
      return stream.PropagateFailure(), written, created, closed;
    }
    if name in fs.uncreatable {
      return Err(fs.uncreatable[name]), written, created, closed;
    }
    created := true;
    closed := true;   // the deferred close runs on every return below
    var steps := stream.value;
    var i := 0;
    while true
      invariant 0 <= i <= |steps|
      invariant written == Bytes(steps[..i])
      invariant StopAt(steps, fs.writeFaults, i) == StopAt(steps, fs.writeFaults, 0)
      decreases |steps| - i
    {
      var step := ReadAt(steps, i);
      if step.status.ReadFault? {
        return Err(step.status.fault), written, created, closed;
      }
      if |step.data| == 0 {
        break;
      }
      if i in fs.writeFaults {
        return Err(fs.writeFaults[i]), written, created, closed;
      }
      assert steps[..i + 1] == steps[..i] + [steps[i]];
      assert steps[..i + 1][..i] == steps[..i];
      written := written + step.data;
      i := i + 1;
    }
    if fs.flushFault.Some? {
      return Err(fs.flushFault.value), written, created, closed;
    }
    r := Ok(());
  }

  /** What reading a stored file returns: full buffers from the front, each with more to come;
      the reads past them return no bytes and end of file. */
  function Chunks(data: seq<byte>): (s: seq<ReadResult>)
    ensures |s| == 0 <==> |data| == 0
    decreases |data|
  {
    if |data| == 0 then []
    else
      var n := if |data| < BufferSize then |data| else BufferSize;
      [ReadResult(data[..n], More)] + Chunks(data[n..])
  }

  lemma {:induction false} BytesAppend(a: seq<ReadResult>, b: seq<ReadResult>)
    ensures Bytes(a + b) == Bytes(a) + Bytes(b)
    decreases |b|
  {
    if |b| == 0 {
      assert a + b == a;
    } else {
      assert (a + b)[..|a + b| - 1] == a + b[..|b| - 1];
      BytesAppend(a, b[..|b| - 1]);
    }
  }

  /** Reading a stored file back gives exactly its bytes, and every read of it returns bytes
      without a fault, so the copy loop reads them all. */
  lemma {:induction false} ChunksRoundTrip(data: seq<byte>)
    ensures Bytes(Chunks(data)) == data
    ensures forall j :: 0 <= j < |Chunks(data)| ==> Continues(Chunks(data), map[], j)
    decreases |data|
  {
    if |data| > 0 {
      var n := if |data| < BufferSize then |data| else BufferSize;
      var head := [ReadResult(data[..n], More)];
      var s := Chunks(data);
      ChunksRoundTrip(data[n..]);
      BytesAppend(head, Chunks(data[n..]));
      assert head[..0] == [];
      assert Bytes(head) == data[..n];
      assert data == data[..n] + data[n..];
      forall j | 0 <= j < |s|
        ensures Continues(s, map[], j)
      {
        if j > 0 {
          assert s[j] == Chunks(data[n..])[j - 1];
          assert Continues(Chunks(data[n..]), map[], j - 1);
        }
      }
    }
  }

  /** Copying a stored file, when no write and no flush fails, reads every chunk, writes
      exactly the file's bytes and succeeds. */
  lemma StoredFileCopies(u: GraphQLUpload, data: seq<byte>, fs: FileSystem)
    requires u.filePath in fs.files && fs.files[u.filePath] == Chunks(data)
    requires fs.writeFaults == map[] && fs.flushFault.None?
    ensures var steps := fs.files[u.filePath];
            && StopAt(steps, fs.writeFaults, 0) == |steps|
            && Bytes(steps[..StopAt(steps, fs.writeFaults, 0)]) == data
            && CopyResult(steps, fs, StopAt(steps, fs.writeFaults, 0)) == Ok(())
  {
    var steps := fs.files[u.filePath];
    ChunksRoundTrip(data);
    var n := StopAt(steps, fs.writeFaults, 0);
    if n < |steps| {
      assert false;
    }
    assert steps[..n] == steps;
  }

  /** A successful copy wrote exactly the chunks read before the first empty read (or the
      end of the stream), in order, and each of them fit the buffer. */
  lemma SuccessfulCopyWritesAllChunks(steps: seq<ReadResult>, fs: FileSystem)
    requires CopyResult(steps, fs, StopAt(steps, fs.writeFaults, 0)).Ok?
    ensures var n := StopAt(steps, fs.writeFaults, 0);
            && n <= |steps|
            && (n == |steps| || |steps[n].data| == 0)
            && (forall j :: 0 <= j < n ==> 0 < |steps[j].data| <= BufferSize)
            && fs.flushFault.None?
  {
    var n := StopAt(steps, fs.writeFaults, 0);
    forall j | 0 <= j < n
      ensures 0 < |steps[j].data| <= BufferSize
    {
      assert Continues(steps, fs.writeFaults, j);
    }
  }
}

=== FILE: segments.dfy ===
/** Dot-delimited map paths and the decimal numerals that index arrays and batches. */
module Segments {
  import opened Errors

  /** `strings.Split(path, ".")`: every segment between dots, including empty ones. */
  function Split(path: string): (segs: seq<string>)
    ensures |segs| >= 1
    ensures forall i :: 0 <= i < |segs| ==> '.' !in segs[i]
    decreases |path|
  {
    if |path| == 0 then [""]
    else
      var rest := Split(path[1..]);
      if path[0] == '.' then [""] + rest
      else [[path[0]] + rest[0]] + rest[1..]
  }

  /** Inverse of `Split`: the segments with a dot between neighbours. */
  function Join(segs: seq<string>): string
    requires |segs| >= 1
    decreases |segs|
  {
    if |segs| == 1 then segs[0] else segs[0] + "." + Join(segs[1..])
  }

  /** Splitting loses nothing: joining the segments gives the path back. */
  lemma {:induction false} JoinSplit(path: string)
    ensures Join(Split(path)) == path
    decreases |path|
  {
    if |path| > 0 {
      var rest := Split(path[1..]);
      JoinSplit(path[1..]);
      if path[0] == '.' {
        assert path == [path[0]] + path[1..];
      } else if |rest| == 1 {
        assert path == [path[0]] + rest[0];
      } else {
        assert Join(rest) == rest[0] + "." + Join(rest[1..]);
        assert path == [path[0]] + path[1..];
      }
    }
  }

  /** Joining dot-free segments and splitting again gives the same segments. */
  lemma {:induction false} SplitJoin(segs: seq<string>)
    requires |segs| >= 1
    requires forall i :: 0 <= i < |segs| ==> '.' !in segs[i]
    ensures Split(Join(segs)) == segs
    decreases |segs|, |segs[0]|
  {
    if |segs| == 1 {
      SplitDotFree(segs[0]);
    } else if |segs[0]| == 0 {
      SplitJoin(segs[1..]);
      assert Join(segs) == "." + Join(segs[1..]);
    } else {
      var c := segs[0][0];
      var segs' := [segs[0][1..]] + segs[1..];
      assert '.' !in segs'[0] by {
        assert forall x :: x in segs[0][1..] ==> x in segs[0];
      }
      SplitJoin(segs');
      assert Join(segs) == [c] + Join(segs') by {
        assert Join(segs') == segs[0][1..] + "." + Join(segs[1..]);
        assert segs[0] == [c] + segs[0][1..];
      }
      assert ([c] + Join(segs'))[1..] == Join(segs');
      assert segs[0] == [c] + segs'[0];
      assert segs == [[c] + segs'[0]] + segs'[1..];
    }
  }

  /** A dot-free string splits into itself. */
  lemma {:induction false} SplitDotFree(s: string)
    requires '.' !in s
    ensures Split(s) == [s]
    decreases |s|
  {
    if |s| > 0 {
      assert '.' !in s[1..] by {
        assert forall x :: x in s[1..] ==> x in s;
      }
      SplitDotFree(s[1..]);
      assert s == [s[0]] + s[1..];
    }
  }

  predicate IsDigit(c: char) {
    '0' <= c <= '9'
  }

  predicate AllDigits(s: string) {
    forall i :: 0 <= i < |s| ==> IsDigit(s[i])
  }

  /** A decimal numeral without redundant leading zeros: each natural number has exactly one. */
  predicate IsIndex(s: string) {
    |s| >= 1 && AllDigits(s) && (s[0] == '0' ==> |s| == 1)
  }

  function DigitChar(d: nat): char
    requires d < 10
  {
    ('0' as int + d) as char
  }

  function DigitValue(c: char): nat
    requires IsDigit(c)
  {
    c as int - '0' as int
  }

  /** The value of a string of digits, most significant first. */
  function DigitsValue(s: string): nat
    requires AllDigits(s)
    decreases |s|
  {
    if |s| == 0 then 0 else 10 * DigitsValue(s[..|s| - 1]) + DigitValue(s[|s| - 1])
  }

  /** The canonical numeral of a natural number. */
  function Numeral(n: nat): (s: string)
    ensures IsIndex(s)
    decreases n
  {
    if n < 10 then [DigitChar(n)] else Numeral(n / 10) + [DigitChar(n % 10)]
  }

  /** Reads an array index or an operation index from a path segment. */
  function ParseIndex(seg: string): (r: Option<nat>)
    ensures r.Some? <==> IsIndex(seg)
  {
    if IsIndex(seg) then Some(DigitsValue(seg)) else None
  }

  /** Every natural number is read back from its numeral. */
  lemma {:induction false} ParseNumeral(n: nat)
    ensures ParseIndex(Numeral(n)) == Some(n)
    decreases n
  {
    var s := Numeral(n);
    if n < 10 {
      assert s[..|s| - 1] == [];
      assert DigitsValue(s) == DigitValue(s[0]);
    } else {
      ParseNumeral(n / 10);
      assert s[..|s| - 1] == Numeral(n / 10);
      assert DigitsValue(s) == 10 * (n / 10) + n % 10;
    }
  }

  /** Digits whose value is zero are all zeros. */
  lemma {:induction false} ZeroDigits(s: string)
    requires AllDigits(s)
    requires DigitsValue(s) == 0
    ensures forall i :: 0 <= i < |s| ==> s[i] == '0'
    decreases |s|
  {
    if |s| > 0 {
      ZeroDigits(s[..|s| - 1]);
      assert forall i :: 0 <= i < |s| - 1 ==> s[i] == s[..|s| - 1][i];
    }
  }

  /** An index segment is the numeral of the number it denotes: the spelling is unique. */
  lemma {:induction false} NumeralOfIndex(seg: string)
    requires IsIndex(seg)
    ensures Numeral(DigitsValue(seg)) == seg
    decreases |seg|
  {
    if |seg| > 1 {
      var p := seg[..|seg| - 1];
      assert p[0] == seg[0];
      if DigitsValue(p) == 0 {
        ZeroDigits(p);
        assert false;
      }
      NumeralOfIndex(p);
      assert seg == p + [seg[|seg| - 1]];
    }
  }

  /** Two segments that denote the same index are the same segment. */
  lemma IndexInjective(a: string, b: string)
    requires ParseIndex(a).Some? && ParseIndex(a) == ParseIndex(b)
    ensures a == b
  {
    NumeralOfIndex(a);
    NumeralOfIndex(b);
  }

  /** `strconv.Atoi` with its error ignored: an optional sign and digits, and 0 for anything else. */
  function AtoiOrZero(s: string): (r: int)
    ensures AllDigits(s) && |s| > 0 ==> r == DigitsValue(s)
    ensures |s| >= 2 && s[0] == '-' && AllDigits(s[1..]) ==> r == -(DigitsValue(s[1..]) as int)
    ensures |s| >= 2 && s[0] == '+' && AllDigits(s[1..]) ==> r == DigitsValue(s[1..])
    ensures !(|s| > 0 && AllDigits(s)) && !(|s| >= 2 && (s[0] == '-' || s[0] == '+') && AllDigits(s[1..])) ==> r == 0
    ensures r < 0 ==> |s| >= 2 && s[0] == '-'
  {
    if |s| >= 2 && s[0] == '-' && AllDigits(s[1..]) then -(DigitsValue(s[1..]) as int)
    else if |s| >= 2 && s[0] == '+' && AllDigits(s[1..]) then DigitsValue(s[1..])
    else if |s| >= 1 && AllDigits(s) then DigitsValue(s)
    else 0
  }
}

=== FILE: transform.dfy ===
/** Rewriting the operations document for every declared (file field, path) pair, in
    single mode (`singleTransformation`) and batch mode (`multipleTransformation`). */
module Transform {
  import opened Errors
  import opened JsonTree
  import opened Segments
  import opened Paths
  import opened Scalar
  import opened Materializer

  /** One declared pair: a file field of the form and one path it is to be written at. */
  datatype Unit = Unit(fieldName: string, path: string)

  /** The pairs of one file field, in the order its paths are listed. */
  function FieldUnits(fieldName: string, paths: seq<string>): (us: seq<Unit>)
    ensures |us| == |paths|
    ensures forall i :: 0 <= i < |us| ==> us[i] == Unit(fieldName, paths[i])
  {
    seq(|paths|, i requires 0 <= i < |paths| => Unit(fieldName, paths[i]))
  }

  /** The pairs in the order the source visits them: the map's keys in `order` (the order
      Go's map iteration happens to choose), and each key's paths in list order. */
  function Units(fm: map<string, seq<string>>, order: seq<string>): (us: seq<Unit>)
    ensures forall u :: u in us ==> u.fieldName in order && u.fieldName in fm && u.path in fm[u.fieldName]
    ensures forall k, p :: k in order && k in fm && p in fm[k] ==> Unit(k, p) in us
    decreases |order|
  {
    if |order| == 0 then []
    else
      var first := if order[0] in fm then FieldUnits(order[0], fm[order[0]]) else [];
      assert forall p :: order[0] in fm && p in fm[order[0]] ==> Unit(order[0], p) in first;
      first + Units(fm, order[1..])
  }

  /** `Units` keeps the visiting order: the keys visited first contribute their pairs first,
      and one key contributes its paths in list order. */
  lemma {:induction false} UnitsInOrder(fm: map<string, seq<string>>, o1: seq<string>, o2: seq<string>)
    ensures Units(fm, o1 + o2) == Units(fm, o1) + Units(fm, o2)
    ensures |o1| == 1 && o1[0] in fm ==> Units(fm, o1) == FieldUnits(o1[0], fm[o1[0]])
    decreases |o1|
  {
    if |o1| == 0 {
      assert o1 + o2 == o2;
    } else {
      assert (o1 + o2)[1..] == o1[1..] + o2;
      UnitsInOrder(fm, o1[1..], o2);
      if |o1| == 1 {
        assert o1[1..] == [];
      }
    }
  }

  /** The segments of a path before its last one: where the container is. */
  function Init(segs: seq<string>): seq<string>
    requires |segs| >= 1
  {
    segs[..|segs| - 1]
  }

  function Last(segs: seq<string>): string
    requires |segs| >= 1
  {
    segs[|segs| - 1]
  }

  /** One extraction unit on one operation: resolve the container, materialize the part,
      write its reference at the last segment. A path that does not resolve is an error
      (the source panics); a part that cannot be materialized leaves the document as it is. */
  function ApplyPath(doc: Json, segs: seq<string>, fieldName: string, up: Uploads): (r: Result<Json, PathError>)
    requires |segs| >= 1
    ensures r.Err? <==> Locate(doc, Init(segs)).Err?
    ensures r.Err? ==> r.error == Locate(doc, Init(segs)).error
    ensures r.Ok? && Materialize(up, fieldName).Err? ==> r.value == doc
    ensures r.Ok? && Materialize(up, fieldName).Ok? ==>
              && SetAt(doc, Init(segs), Last(segs), Ref(Materialize(up, fieldName).value.ref)) == Ok(r.value)
              && Resolve(r.value, segs) == Ok(Ref(Materialize(up, fieldName).value.ref))
  {
    var prefix := Init(segs);
    var container :- Locate(doc, prefix);
    match Materialize(up, fieldName)
    case Err(_) => Ok(doc)
    case Ok(stored) =>
      var v := Ref(stored.ref);
      SetAtSucceedsIff(doc, prefix, Last(segs), v);
      SetAtWrites(doc, prefix, Last(segs), v);
      assert prefix + [Last(segs)] == segs;
      SetAt(doc, prefix, Last(segs), v)
  }

  /** The corrected unit writes into the container the source's `findField` returns exactly
      what the source's `addFileToOperations` leaves in it. */
  lemma ApplyPathAgreesWithSource(doc: Json, segs: seq<string>, fieldName: string, up: Uploads)
    requires |segs| >= 1
    requires FindFieldAsWritten(doc, Init(segs)).Ok?
    ensures ApplyPath(doc, segs, fieldName, up).Ok?
    ensures Locate(ApplyPath(doc, segs, fieldName, up).value, Init(segs))
            == Ok(AddFileToOperations(FindFieldAsWritten(doc, Init(segs)).value, up, fieldName, Last(segs)))
  {
    LocateExtendsFindField(doc, Init(segs));
    if Materialize(up, fieldName).Ok? {
      var v := Ref(Materialize(up, fieldName).value.ref);
      SetAtSucceedsIff(doc, Init(segs), Last(segs), v);
      SetAtWrites(doc, Init(segs), Last(segs), v);
    }
  }

  /** `singleTransformation`: applies every unit in turn to the one operations document. */
  function SingleTransformation(doc: Json, units: seq<Unit>, up: Uploads): (r: Result<Json, PathError>)
    ensures |units| > 0 && Locate(doc, Init(Split(units[0].path))).Err? ==>
              r == Err(Locate(doc, Init(Split(units[0].path))).error)
    ensures r.Ok? ==> (r.value.Obj? <==> doc.Obj?) && (r.value.Arr? <==> doc.Arr?)
    decreases |units|
  {
    if |units| == 0 then Ok(doc)
    else
      var d :- ApplyPath(doc, Split(units[0].path), units[0].fieldName, up);
      SingleTransformation(d, units[1..], up)
  }

  /** When no unit's part can be materialized, a rewrite that succeeds leaves the document
      exactly as it was: only a materialized part is ever written. */
  lemma {:induction false} NothingMaterializedLeavesDocument(doc: Json, units: seq<Unit>, up: Uploads)
    requires SingleTransformation(doc, units, up).Ok?
    requires forall i :: 0 <= i < |units| ==> Materialize(up, units[i].fieldName).Err?
    ensures SingleTransformation(doc, units, up).value == doc
    decreases |units|
  {
    if |units| > 0 {
      var d := ApplyPath(doc, Split(units[0].path), units[0].fieldName, up);
      assert d == Ok(doc);
      NothingMaterializedLeavesDocument(doc, units[1..], up);
    }
  }

  /** Units whose paths are disjoint from `q` leave what `q` resolves to as it was. */
  lemma {:induction false} TransformationFrame(doc: Json, units: seq<Unit>, up: Uploads, q: seq<string>)
    requires SingleTransformation(doc, units, up).Ok?
    requires forall j :: 0 <= j < |units| ==> Disjoint(q, Split(units[j].path))
    ensures Resolve(SingleTransformation(doc, units, up).value, q) == Resolve(doc, q)
    decreases |units|
  {
    if |units| > 0 {
      var segs := Split(units[0].path);
      var d := ApplyPath(doc, segs, units[0].fieldName, up).value;
      if Materialize(up, units[0].fieldName).Ok? {
        assert Disjoint(q, segs);
        assert segs == Init(segs) + [Last(segs)];
        assert !(q <= Init(segs)) by {
          assert Init(segs) <= segs;
        }
        SetAtFrame(doc, Init(segs), Last(segs), Ref(Materialize(up, units[0].fieldName).value.ref), q);
      }
      assert forall j :: 0 <= j < |units[1..]| ==> units[1..][j] == units[j + 1];
      TransformationFrame(d, units[1..], up, q);
    }
  }

  /** After a successful single-mode rewrite over pairwise disjoint paths, every declared
      path whose part could be materialized holds that part's reference. */
  lemma {:induction false} DeclaredPathsHoldReferences(doc: Json, units: seq<Unit>, up: Uploads)
    requires SingleTransformation(doc, units, up).Ok?
    requires forall i, j :: 0 <= i < |units| && 0 <= j < |units| && i != j
               ==> Disjoint(Split(units[i].path), Split(units[j].path))
    ensures forall i :: 0 <= i < |units| && Materialize(up, units[i].fieldName).Ok? ==>
              Resolve(SingleTransformation(doc, units, up).value, Split(units[i].path))
              == Ok(Ref(Materialize(up, units[i].fieldName).value.ref))
    decreases |units|
  {
    if |units| > 0 {
      var d := ApplyPath(doc, Split(units[0].path), units[0].fieldName, up).value;
      var rest := units[1..];
      assert forall j :: 0 <= j < |rest| ==> rest[j] == units[j + 1];
      DeclaredPathsHoldReferences(d, rest, up);
      forall i | 0 <= i < |units| && Materialize(up, units[i].fieldName).Ok?
        ensures Resolve(SingleTransformation(doc, units, up).value, Split(units[i].path))
                == Ok(Ref(Materialize(up, units[i].fieldName).value.ref))
      {
        if i == 0 {
          forall j | 0 <= j < |rest|
            ensures Disjoint(Split(units[0].path), Split(rest[j].path))
          {
            assert rest[j] == units[j + 1];
          }
          TransformationFrame(d, rest, up, Split(units[0].path));
        } else {
          assert units[i] == rest[i - 1];
        }
      }
    }
  }


  /** One declared path of a successful rewrite over disjoint paths holds its part's reference. */
  lemma DeclaredPathHoldsReference(doc: Json, units: seq<Unit>, up: Uploads, key: string, path: string)
    requires SingleTransformation(doc, units, up).Ok?
    requires forall i, j :: 0 <= i < |units| && 0 <= j < |units| && i != j
               ==> Disjoint(Split(units[i].path), Split(units[j].path))
    requires Unit(key, path) in units && Materialize(up, key).Ok?
    ensures Resolve(SingleTransformation(doc, units, up).value, Split(path)) == Ok(Ref(Materialize(up, key).value.ref))
  {
    DeclaredPathsHoldReferences(doc, units, up);
    var i :| 0 <= i < |units| && units[i] == Unit(key, path);
  }
  /** A reference the rewrite stored is not a container: a later path that runs through it
      stops, as the source's final assertion to a map panics on the stored pointer. */
  lemma PathThroughReferenceStops(doc: Json, segs: seq<string>, fieldName: string, x: string,
                                  other: string, up: Uploads)
    requires |segs| >= 1
    requires ApplyPath(doc, segs, fieldName, up).Ok? && Materialize(up, fieldName).Ok?
    ensures ApplyPath(ApplyPath(doc, segs, fieldName, up).value, segs + [x], other, up) == Err(TargetNotObject)
  {
    var d := ApplyPath(doc, segs, fieldName, up).value;
    assert Init(segs + [x]) == segs;
    assert Resolve(d, segs).value.Ref?;
  }

  /** A unit that applies keeps the container of every path disjoint from its own. */
  lemma WriteKeepsDisjointContainers(doc: Json, s1: seq<string>, fieldName: string, up: Uploads, s2: seq<string>)
    requires |s1| >= 1 && |s2| >= 1 && Disjoint(s1, s2)
    requires ApplyPath(doc, s1, fieldName, up).Ok?
    requires Locate(doc, Init(s2)).Ok?
    ensures Locate(ApplyPath(doc, s1, fieldName, up).value, Init(s2)).Ok?
  {
    if Materialize(up, fieldName).Ok? {
      var v := Ref(Materialize(up, fieldName).value.ref);
      var q := Init(s2);
      assert Init(s1) + [Last(s1)] == s1;
      if q <= Init(s1) {
        SetAtKeepsPrefix(doc, Init(s1), Last(s1), v, q);
      } else {
        assert q <= s2;
        SetAtFrame(doc, Init(s1), Last(s1), v, q);
      }
    }
  }

  /** The rewrite succeeds when the declared paths are pairwise disjoint and every one of
      their containers resolves in the document it starts from. */
  lemma {:induction false} DisjointUnitsSucceed(doc: Json, units: seq<Unit>, up: Uploads)
    requires forall i, j :: 0 <= i < |units| && 0 <= j < |units| && i != j
               ==> Disjoint(Split(units[i].path), Split(units[j].path))
    requires forall i :: 0 <= i < |units| ==> Locate(doc, Init(Split(units[i].path))).Ok?
    ensures SingleTransformation(doc, units, up).Ok?
    decreases |units|
  {
    if |units| > 0 {
      var d := ApplyPath(doc, Split(units[0].path), units[0].fieldName, up).value;
      var rest := units[1..];
      forall j | 0 <= j < |rest|
        ensures Locate(d, Init(Split(rest[j].path))).Ok?
      {
        assert rest[j] == units[j + 1];
        WriteKeepsDisjointContainers(doc, Split(units[0].path), units[0].fieldName, up, Split(rest[j].path));
      }
      forall i, j | 0 <= i < |rest| && 0 <= j < |rest| && i != j
        ensures Disjoint(Split(rest[i].path), Split(rest[j].path))
      {
        assert rest[i] == units[i + 1] && rest[j] == units[j + 1];
      }
      DisjointUnitsSucceed(d, rest, up);
    }
  }

  /** Two units at disjoint paths that each apply to a document apply in either order and
      give the same document. */
  lemma UnitsCommute(doc: Json, s1: seq<string>, f1: string, s2: seq<string>, f2: string, up: Uploads)
    requires |s1| >= 1 && |s2| >= 1 && Disjoint(s1, s2)
    requires ApplyPath(doc, s1, f1, up).Ok? && ApplyPath(doc, s2, f2, up).Ok?
    ensures ApplyPath(ApplyPath(doc, s1, f1, up).value, s2, f2, up).Ok?
    ensures ApplyPath(ApplyPath(doc, s2, f2, up).value, s1, f1, up).Ok?
    ensures ApplyPath(ApplyPath(doc, s1, f1, up).value, s2, f2, up)
            == ApplyPath(ApplyPath(doc, s2, f2, up).value, s1, f1, up)
  {
    assert s1 == Init(s1) + [Last(s1)];
    assert s2 == Init(s2) + [Last(s2)];
    var m1 := Materialize(up, f1);
    var m2 := Materialize(up, f2);
    var v1 := if m1.Ok? then Ref(m1.value.ref) else Null;
    var v2 := if m2.Ok? then Ref(m2.value.ref) else Null;
    SetAtSucceedsIff(doc, Init(s1), Last(s1), v1);
    SetAtSucceedsIff(doc, Init(s2), Last(s2), v2);
    WritesCommute(doc, Init(s1), Last(s1), v1, Init(s2), Last(s2), v2);
    var d1 := SetAt(doc, Init(s1), Last(s1), v1).value;
    var d2 := SetAt(doc, Init(s2), Last(s2), v2).value;
    SetAtSucceedsIff(d1, Init(s2), Last(s2), v2);
    SetAtSucceedsIff(d2, Init(s1), Last(s1), v1);
  }

  /** Running a sequence of units is running its first part, then the rest on the result. */
  lemma {:induction false} TransformationAppend(doc: Json, xs: seq<Unit>, ys: seq<Unit>, up: Uploads)
    ensures SingleTransformation(doc, xs + ys, up)
            == (match SingleTransformation(doc, xs, up)
                case Err(e) => Err(e)
                case Ok(d) => SingleTransformation(d, ys, up))
    decreases |xs|
  {
    if |xs| > 0 {
      assert (xs + ys)[0] == xs[0];
      assert (xs + ys)[1..] == xs[1..] + ys;
      var r := ApplyPath(doc, Split(xs[0].path), xs[0].fieldName, up);
      if r.Ok? {
        TransformationAppend(r.value, xs[1..], ys, up);
      }
    } else {
      assert xs + ys == ys;
    }
  }

  /** The order Go's map iteration picks does not matter for two adjacent units whose paths
      are disjoint and which both apply to the document they reach. */
  lemma SwapDisjointUnits(doc: Json, before: seq<Unit>, a: Unit, b: Unit, after: seq<Unit>, up: Uploads)
    requires Disjoint(Split(a.path), Split(b.path))
    requires SingleTransformation(doc, before, up).Ok?
    requires ApplyPath(SingleTransformation(doc, before, up).value, Split(a.path), a.fieldName, up).Ok?
    requires ApplyPath(SingleTransformation(doc, before, up).value, Split(b.path), b.fieldName, up).Ok?
    ensures SingleTransformation(doc, before + [a, b] + after, up)
            == SingleTransformation(doc, before + [b, a] + after, up)
  {
    var d := SingleTransformation(doc, before, up).value;
    assert before + [a, b] + after == before + ([a, b] + after);
    assert before + [b, a] + after == before + ([b, a] + after);
    TransformationAppend(doc, before, [a, b] + after, up);
    TransformationAppend(doc, before, [b, a] + after, up);
    UnitsCommute(d, Split(a.path), a.fieldName, Split(b.path), b.fieldName, up);
    assert ([a, b] + after)[1..] == [b] + after;
    assert ([b] + after)[1..] == after;
    assert ([b, a] + after)[1..] == [a] + after;
    assert ([a] + after)[1..] == after;
  }

  /** The operation a batch-mode path selects: its first segment, read as an index. */
  function TargetIndex(path: string): Option<nat>
  {
    var segs := Split(path);
    if |segs| >= 2 then ParseIndex(segs[0]) else None
  }

  /** One batch-mode unit: the first segment selects the operation and is consumed; the rest
      of the path is resolved and written inside that operation alone. */
  function ApplyBatchUnit(batch: seq<Json>, u: Unit, up: Uploads): (r: Result<seq<Json>, PathError>)
    ensures |Split(u.path)| < 2 ==> r == Err(UnresolvedPath)
    ensures |Split(u.path)| >= 2 && ParseIndex(Split(u.path)[0]).None? ==> r == Err(InvalidPathSegment)
    ensures TargetIndex(u.path).Some? && TargetIndex(u.path).value >= |batch| ==> r == Err(IndexOutOfRange)
    ensures r.Ok? ==>
              && TargetIndex(u.path).Some?
              && var i := TargetIndex(u.path).value;
              && i < |batch|
              && |r.value| == |batch|
              && ApplyPath(batch[i], Split(u.path)[1..], u.fieldName, up) == Ok(r.value[i])
              && forall j :: 0 <= j < |batch| && j != i ==> r.value[j] == batch[j]
    ensures TargetIndex(u.path).Some? && TargetIndex(u.path).value < |batch| ==>
              (r.Ok? <==> ApplyPath(batch[TargetIndex(u.path).value], Split(u.path)[1..], u.fieldName, up).Ok?)
  {
    var segs := Split(u.path);
    if |segs| < 2 then Err(UnresolvedPath)
    else
      match ParseIndex(segs[0])
      case None => Err(InvalidPathSegment)
      case Some(i) =>
        if i >= |batch| then Err(IndexOutOfRange)
        else
          var op :- ApplyPath(batch[i], segs[1..], u.fieldName, up);
          Ok(batch[i := op])
  }

  /** `multipleTransformation`: applies every unit in turn to the batch. The batch keeps its
      length, and an operation no unit selects is left exactly as it was. */
  function MultipleTransformation(batch: seq<Json>, units: seq<Unit>, up: Uploads): (r: Result<seq<Json>, PathError>)
    ensures r.Ok? ==> |r.value| == |batch|
    ensures r.Ok? ==> forall j :: 0 <= j < |batch| && (forall u :: u in units ==> TargetIndex(u.path) != Some(j))
                        ==> r.value[j] == batch[j]
    ensures |units| == 0 ==> r == Ok(batch)
    ensures |units| > 0 && ApplyBatchUnit(batch, units[0], up).Err? ==> r == Err(ApplyBatchUnit(batch, units[0], up).error)
    decreases |units|
  {
    if |units| == 0 then Ok(batch)
    else
      var b :- ApplyBatchUnit(batch, units[0], up);
      assert forall u :: u in units[1..] ==> u in units;
      MultipleTransformation(b, units[1..], up)
  }

  /** A batch unit whose path has an index and a rest is the single-mode step on the batch
      seen as one array: it applies exactly when that step does, with the same batch. */
  lemma BatchUnitIsArrayStep(batch: seq<Json>, u: Unit, up: Uploads)
    requires |Split(u.path)| >= 2
    ensures ApplyBatchUnit(batch, u, up).Ok? <==> ApplyPath(Arr(batch), Split(u.path), u.fieldName, up).Ok?
    ensures ApplyBatchUnit(batch, u, up).Ok? ==>
              ApplyPath(Arr(batch), Split(u.path), u.fieldName, up) == Ok(Arr(ApplyBatchUnit(batch, u, up).value))
  {
    var segs := Split(u.path);
    var rest := segs[1..];
    assert Init(segs) == [segs[0]] + Init(rest);
    assert ([segs[0]] + Init(rest))[1..] == Init(rest);
    assert Last(segs) == Last(rest);
    if ParseIndex(segs[0]).Some? && ParseIndex(segs[0]).value < |batch| {
      var i := ParseIndex(segs[0]).value;
      assert Child(Arr(batch), segs[0]) == Ok(batch[i]);
      assert Locate(Arr(batch), Init(segs)) == Locate(batch[i], Init(rest));
      if Materialize(up, u.fieldName).Err? {
        assert batch[i := batch[i]] == batch;
      }
    }
  }

  /** Batch mode is single mode over the batch seen as one array, when every path has an
      index and a rest: the same units succeed, and they give the same batch. */
  lemma {:induction false} BatchIsSingleOverArray(batch: seq<Json>, units: seq<Unit>, up: Uploads)
    requires forall i :: 0 <= i < |units| ==> |Split(units[i].path)| >= 2
    ensures MultipleTransformation(batch, units, up).Ok? <==> SingleTransformation(Arr(batch), units, up).Ok?
    ensures MultipleTransformation(batch, units, up).Ok? ==>
              SingleTransformation(Arr(batch), units, up) == Ok(Arr(MultipleTransformation(batch, units, up).value))
    decreases |units|
  {
    if |units| > 0 {
      BatchUnitIsArrayStep(batch, units[0], up);
      if ApplyBatchUnit(batch, units[0], up).Ok? {
        var rest := units[1..];
        assert forall i :: 0 <= i < |rest| ==> rest[i] == units[i + 1];
        BatchIsSingleOverArray(ApplyBatchUnit(batch, units[0], up).value, rest, up);
      }
    }
  }

  /** The batch rewrite succeeds when the declared paths are pairwise disjoint, each has an
      index and a rest, and each container resolves: the index is in range and the rest of the
      path but its last segment leads to an object inside that operation. */
  lemma DisjointBatchUnitsSucceed(batch: seq<Json>, units: seq<Unit>, up: Uploads)
    requires forall i :: 0 <= i < |units| ==> |Split(units[i].path)| >= 2
    requires forall i, j :: 0 <= i < |units| && 0 <= j < |units| && i != j
               ==> Disjoint(Split(units[i].path), Split(units[j].path))
    requires forall i :: 0 <= i < |units| ==> Locate(Arr(batch), Init(Split(units[i].path))).Ok?
    ensures MultipleTransformation(batch, units, up).Ok?
  {
    DisjointUnitsSucceed(Arr(batch), units, up);
    BatchIsSingleOverArray(batch, units, up);
  }

  /** One batch-mode unit as the source performs it: the index segment is read with its
      error ignored, the whole path but the last segment (index included) is walked inside
      the selected operation, and the operation is replaced by the container written into. */
  function ApplyBatchUnitAsWritten(batch: seq<Json>, u: Unit, up: Uploads): (r: Result<seq<Json>, PathError>)
    ensures !(0 <= AtoiOrZero(Split(u.path)[0]) < |batch|) ==> r == Err(IndexOutOfRange)
    ensures r.Ok? ==>
              && var i := AtoiOrZero(Split(u.path)[0]);
              && 0 <= i < |batch|
              && |r.value| == |batch|
              && FindFieldAsWritten(batch[i], Init(Split(u.path))).Ok?
              && r.value[i].Obj?
              && forall j :: 0 <= j < |batch| && j != i ==> r.value[j] == batch[j]
  {
    var segs := Split(u.path);
    var i := AtoiOrZero(segs[0]);
    if !(0 <= i < |batch|) then Err(IndexOutOfRange)
    else
      var container :- FindFieldAsWritten(batch[i], Init(segs));
      Ok(batch[i := Obj(AddFileToOperations(container, up, u.fieldName, Last(segs)))])
  }

  /** The path of the batch counterexample below splits into its three segments. */
  lemma SplitSamplePath()
    ensures Split("0.variables.file") == ["0", "variables", "file"]
  {
    var segs := ["0", "variables", "file"];
    assert Join(segs) == "0.variables.file";
    SplitJoin(segs);
  }

  /** The batch of the counterexample below: one operation with a `variables.file` placeholder. */
  function SampleBatch(): seq<Json>
  {
    [Obj(map["variables" := Obj(map["file" := Null])])]
  }

  /** The uploads of the counterexample: one readable, writable part named "0". */
  function SampleUploads(): Uploads
  {
    Uploads(map["0" := FilePart("a.png", "image/png", Ok([]))], "/tmp", {}, 0)
  }

  /** As written, a path split into `0`, `variables`, `file` looks up the key "0" inside the
      operation and fails. */
  lemma SampleFailsAsWritten(u: Unit)
    requires Split(u.path) == ["0", "variables", "file"]
    ensures ApplyBatchUnitAsWritten(SampleBatch(), u, SampleUploads()).Err?
  {
    var op := SampleBatch()[0];
    assert AtoiOrZero("0") == 0;
    assert Init(["0", "variables", "file"]) == ["0", "variables"];
    assert op.Obj? && "0" !in op.fields;
    assert ["0", "variables"][1..] == ["variables"];
    assert Walk(op, ["0", "variables"]) == Walk(Null, ["variables"]);
    WalkStuck(Null, ["variables"]);
  }

  /** Corrected, the same path selects operation 0 and writes the reference there. */
  lemma SampleWritesCorrected(u: Unit)
    requires Split(u.path) == ["0", "variables", "file"]
    requires u.fieldName == "0"
    ensures var r := ApplyBatchUnit(SampleBatch(), u, SampleUploads());
            && r.Ok?
            && Resolve(r.value[0], ["variables", "file"])
               == Ok(Ref(GraphQLUpload("a.png", "image/png", "/tmp/0-1-0-a.png")))
  {
    var op := SampleBatch()[0];
    var up := SampleUploads();
    ParseNumeral(0);
    var tail := ["0", "variables", "file"][1..];
    assert tail == ["variables", "file"];
    assert Init(tail) == ["variables"];
    assert Locate(op, ["variables"]) == Ok(map["file" := Null]) by {
      assert ["variables"][1..] == [];
    }
    assert Numeral(0) == "0" && Numeral(1) == "1";
    assert TempPath(up, Tagged, "0", "a.png") == "/tmp/0-1-0-a.png";
    assert Materialize(up, "0") == Ok(Stored(GraphQLUpload("a.png", "image/png", "/tmp/0-1-0-a.png"), []));
  }

  /** A one-operation batch whose `variables.file` is declared as `0.variables.file`: the
      source looks the index up as a key and fails, the corrected unit writes the reference. */
  lemma BatchIndexAsKeyAsWritten()
    ensures var u := Unit("0", "0.variables.file");
            && ApplyBatchUnitAsWritten(SampleBatch(), u, SampleUploads()).Err?
            && ApplyBatchUnit(SampleBatch(), u, SampleUploads()).Ok?
            && Resolve(ApplyBatchUnit(SampleBatch(), u, SampleUploads()).value[0], ["variables", "file"])
               == Ok(Ref(GraphQLUpload("a.png", "image/png", "/tmp/0-1-0-a.png")))
  {
    var u := Unit("0", "0.variables.file");
    SplitSamplePath();
    SampleFailsAsWritten(u);
    SampleWritesCorrected(u);
  }
}
